=== FILE: README.md ===
# HIPAA evidence evaluation engine in Dafny

This project models the core of a HIPAA compliance-automation framework for
Google Cloud: the **evidence processor**. It receives evidence lists that have
already been collected:

- BigQuery access logs, access-pattern aggregates and table configurations;
- Security Command Center findings, encryption-status records and
  network-control records.

It judges four controls of the HIPAA Security Rule (45 CFR 164.312(a)(1)
access control, (b) audit controls, (c)(1) integrity and (e)(1) transmission
security). Each verdict carries a status and itemised issues. The processor
also rolls each source up into counts and summarises the run with two
percentages: the encryption compliance rate and the audit-log coverage.
Beside the engine the project models two smaller pieces:

- the validator of the loaded YAML configuration;
- the text the PDF reporter writes into its control tables: control titles,
  the status row and the issues table with abridged details.

Modules, one per concept:

| module | file | contents |
|---|---|---|
| `Wrappers` | wrappers.dfy | `Option`, `Result` |
| `Seqs` | seqs.dfy | `Filter` (a list comprehension), `Take` (a slice `[:n]`), counting lemmas |
| `Text` | text.dfy | ASCII `lower`/`upper`/`title`, substring `in`, `replace`, `str` of a count and its inverse |
| `Percent` | percent.dfy | `100 * part / whole` with 0 for an empty whole |
| `Timeline` | timeline.dfy | timestamp sort, gap detection, audit coverage |
| `Evidence` | evidence.dfy | the evidence records |
| `Controls` | controls.dfy | the four control validators |
| `Engine` | engine.dfy | roll-ups, summary, the controls dictionary, `process_evidence` |
| `Config` | config.dfy | configuration validation with first-missing-key errors |
| `Report` | report.dfy | control titles, status row, issues table |

Decisions the model makes:

- **Time.** Timestamps are integer seconds. The evaluation instant is a
  parameter `now`, where the source reads `datetime.utcnow()`.
- **Rates.** Rates are exact `real` ratios.
- **Sorting.** pandas' `sort_values(...).diff()` becomes an insertion sort
  followed by consecutive differences. `SortIsCanonical` proves that the
  result does not depend on the order in which the logs arrive.
- **Text forms.** Where the source searches the Python text form of a
  record (`str(log['details'])`, `str(asset)`), the record carries that text
  as a string field.
- **Controls dictionary.** It has four fixed keys, so it is a record with one
  field per key (`Engine.ControlVerdicts`).

Behaviours of the code that the model keeps as written:

- **Denied access.** Only log entries of severity `ERROR` or `WARNING`
  whose details mention "permission denied" count as denied access
  (src/processors/evidence_processor.py:66-70); a `CRITICAL` entry does not.
- **Thresholds.** The gap threshold (one hour) and the suspicious-access
  threshold (100 accesses) are constants in the code
  (src/processors/evidence_processor.py:111, 124, 313), not configuration.
- **Transit.** The transit check searches the text form of the whole
  encryption record for "transit" (src/processors/evidence_processor.py:201-205),
  not a particular field.
- **Audit status.** Each check assigns the status when it fires, so the
  status is that of the last check that fired
  (src/processors/evidence_processor.py:119, 133): a suspicious access
  pattern turns a gap-induced `non_compliant` into `warning`.
  - `Controls.DerivedStatus` is the "blocking issue wins" reading of a
    control's issues, and `Controls.AuditStatusOverride` states exactly
    when the two readings differ.
  - `Controls.AuditSuspicionHidesGap` gives a concrete pair of log sets for
    which more evidence weakens the verdict.
  - The other three controls are monotone (`*Monotone` lemmas) and always
    agree with the derived status.

## Model

| member | source | states |
|---|---|---|
| Seqs.Filter | src/processors/evidence_processor.py:66-70 | a comprehension keeps only elements that pass the test, keeps every element that passes, and is never longer than its input |
| Seqs.FilterNonEmpty | src/processors/evidence_processor.py:72 | a filtered list is non-empty exactly when some element passes, which is when a check fires |
| Seqs.FilterFull | src/processors/evidence_processor.py:289-294 | the filtered list has the full length exactly when every element passes |
| Seqs.FilterAppend | src/processors/evidence_processor.py:66-70 | filtering distributes over concatenation, so flagged items keep their input order |
| Seqs.FilterComplement | src/processors/evidence_processor.py:232-240 | two complementary filters split the list: their counts add up to its length |
| Seqs.FilterDisjoint | src/processors/evidence_processor.py:224-231 | two exclusive filters together count at most the list's length |
| Seqs.FilterMonotone | src/processors/evidence_processor.py:201-205 | a stricter test never flags more items |
| Seqs.Take | src/processors/evidence_processor.py:76 | the sample is a prefix of the flagged list with min(n, length) items |
| Text.ReplaceChar | src/reporters/pdf_reporter.py:246 | replacing `_` keeps the length, puts a space wherever `_` was, and changes no other character |
| Text.TitleCaseShape | src/reporters/pdf_reporter.py:246 | title-casing changes only case, capitalises exactly the first letter of each run of letters, and is idempotent |
| Text.NatToString | src/reporters/pdf_reporter.py:226 | a rendered count is non-empty decimal digits with no leading zero |
| Text.ParseNatToString | src/reporters/pdf_reporter.py:226 | reading back a rendered count gives the count |
| Text.NatToStringOfNumeral | src/reporters/pdf_reporter.py:226 | every canonical numeral is the rendering of its value, so rendering and reading are inverse bijections |
| Text.LowerUpperOfLower | src/reporters/pdf_reporter.py:146 | upper-casing a status name loses nothing: lower-casing recovers it |
| Percent.Percentage | src/processors/evidence_processor.py:285-294 | the percentage lies in [0, 100], is 0 exactly for an empty part or whole, and is 100 exactly when the part is the whole |
| Timeline.Sort | src/processors/evidence_processor.py:110 | the result is ascending and a permutation of the timestamps |
| Timeline.SortedUnique | src/processors/evidence_processor.py:110 | two ascending permutations of the same timestamps are equal |
| Timeline.SortIsCanonical | src/processors/evidence_processor.py:110 | rearranged timestamps sort to the same sequence, and an ascending sequence sorts to itself |
| Timeline.MinOf | src/processors/evidence_processor.py:304 | the minimum is one of the timestamps and no larger than any |
| Timeline.MaxOf | src/processors/evidence_processor.py:304 | the maximum is one of the timestamps and no smaller than any |
| Timeline.SortEnds | src/processors/evidence_processor.py:304 | the sorted sequence starts at the minimum and ends at the maximum, so `max - min` is `last - first` |
| Timeline.Gaps | src/processors/evidence_processor.py:110-111 | there are fewer gaps than timestamps, and every gap is longer than one hour |
| Timeline.GapsAreBigSteps | src/processors/evidence_processor.py:110-111 | a gap is exactly a pair of neighbouring sorted timestamps more than 3600 s apart, so equal timestamps are never a gap |
| Timeline.GapsInOrder | src/processors/evidence_processor.py:110-111 | the gaps of an ascending sequence come in chronological order: each ends no later than the next one starts |
| Timeline.GapCount | src/processors/evidence_processor.py:110-116 | the number of gaps equals the number of consecutive differences strictly above 3600 s |
| Timeline.GapTotalWithinSpan | src/processors/evidence_processor.py:304-314 | the gaps of an ascending sequence add up to at least 0 and at most its span, and to a positive amount exactly when there is a gap |
| Timeline.GapTotalIsLongStepSum | src/processors/evidence_processor.py:310-314 | the gaps add up to the sum of the consecutive differences longer than an hour |
| Timeline.CoverageBounds | src/processors/evidence_processor.py:304-314 | the subtracted gap time lies between 0 and `max - min` |
| Timeline.CoveredSpanIsLongStepSum | src/processors/evidence_processor.py:310-314 | the covered part is the span minus the long consecutive differences |
| Timeline.Coverage | src/processors/evidence_processor.py:296-316 | coverage lies in [0, 100] and is 0 when the span is zero |
| Timeline.CoverageFormula | src/processors/evidence_processor.py:304-316 | with a positive span, coverage is 100 * (span - sum of differences above 3600 s) / span |
| Timeline.CoverageFull | src/processors/evidence_processor.py:304-316 | with a positive span, coverage is 100 exactly when no gap is found |
| Timeline.CoverageExample | src/processors/evidence_processor.py:296-316 | a four-hour log with one three-hour hole is 25% covered, with its timestamps given out of order |
| Controls.Raise | src/processors/evidence_processor.py:72-77 | a check appends nothing when nothing is flagged; otherwise it appends one issue with the full count and the first five flagged items |
| Controls.RaiseBoth | src/processors/evidence_processor.py:62-93 | two checks appending in turn each leave an issue of their kind exactly when they flag something, and that issue summarises their flagged list |
| Controls.BlockingChecks | src/processors/evidence_processor.py:141-179 | a control made of two blocking checks is non-compliant exactly when one fires, compliant exactly when it has no issues, and reports both checks in order |
| Controls.ValidateAccessControl | src/processors/evidence_processor.py:60-99 | non-compliant exactly when an ERROR or WARNING log says "permission denied" or a HIGH/CRITICAL finding's category mentions IAM; never a warning; compliant exactly when issue-free; at most two issues, each summarising its flagged list, logs before IAM |
| Controls.AccessControlMonotone | src/processors/evidence_processor.py:60-93 | more evidence never clears an access-control violation |
| Controls.ValidateAuditControls | src/processors/evidence_processor.py:101-139 | a warning exactly when some pattern has more than 100 accesses; non-compliant exactly when there is a gap and no such pattern; both issues reported, gaps first |
| Controls.AuditGapIssue | src/processors/evidence_processor.py:106-119 | the gap issue counts the consecutive differences above 3600 s, and fewer than two logs never raise it |
| Controls.AuditStatusOverride | src/processors/evidence_processor.py:113-133 | the audit status differs from the status its issues justify exactly when both a gap and a suspicious pattern are present |
| Controls.AuditSuspicionHidesGap | src/processors/evidence_processor.py:113-133 | a two-hour gap alone is non-compliant, and adding a pattern with 101 accesses makes it a warning |
| Controls.ValidateIntegrity | src/processors/evidence_processor.py:141-179 | non-compliant exactly when an encryption record is not ACTIVE or a HIGH/CRITICAL finding's category mentions integrity; never a warning; at most two issues, unencrypted assets before integrity findings |
| Controls.IntegrityMonotone | src/processors/evidence_processor.py:146-173 | more evidence never clears an integrity violation |
| Controls.ValidateTransmissionSecurity | src/processors/evidence_processor.py:181-219 | non-compliant exactly when a network control is not ACTIVE or a non-ACTIVE encryption record's text mentions transit; never a warning; at most two issues, insecure networks before transit records |
| Controls.TransmissionMonotone | src/processors/evidence_processor.py:186-213 | more evidence never clears a transmission-security violation |
| Controls.TransitWithinUnencrypted | src/processors/evidence_processor.py:200-205 | transit issues are a subset of unencrypted assets: never more of them, and a transit issue alone implies an integrity violation |
| Engine.ProcessSccEvidence | src/processors/evidence_processor.py:221-242 | the critical and high counts are the numbers of CRITICAL and HIGH findings and together never exceed the findings; the compliant count is the number of ACTIVE records, and compliant plus non-compliant equals the records; a non-compliant count exactly when some record is not ACTIVE |
| Engine.UsersBound | src/processors/evidence_processor.py:248-250 | there are never more distinct users than log entries, and none exactly when there are no logs |
| Engine.ProcessBqEvidence | src/processors/evidence_processor.py:244-261 | the log total is the number of logs; the user count is the number of distinct users and does not exceed it; the compliant count is the number of configs with encryption, and compliant plus non-compliant equals the configs |
| Engine.EncryptedCount | src/processors/evidence_processor.py:289-292 | the ACTIVE count is 0 exactly when no record is ACTIVE and full exactly when all are |
| Engine.EncryptionRate | src/processors/evidence_processor.py:283-294 | the rate lies in [0, 100], is 0 exactly when no record is ACTIVE (including none at all), is 100 exactly when all of a non-empty list are, and is 100 * ACTIVE / total otherwise |
| Engine.AuditCoverage | src/processors/evidence_processor.py:296-316 | coverage lies in [0, 100], is 0 for no logs or a zero span, and with a positive span is 100 * (span - sum of consecutive differences above 3600 s) / span, which is 100 exactly when the audit control finds no gap |
| Engine.GenerateSummary | src/processors/evidence_processor.py:263-281 | the total is the number of findings; the critical and high counts are the numbers of CRITICAL and HIGH findings; the two rates are the encryption rate and the audit coverage of the evidence, both in [0, 100] |
| Engine.MapToHipaaControls | src/processors/evidence_processor.py:30-58 | every verdict is stamped with the evaluation instant; access control is non-compliant exactly on a denied-access log or an IAM finding, audit controls warn exactly on a suspicious pattern and are otherwise non-compliant exactly on a gap, integrity is non-compliant exactly on an unencrypted record or an integrity finding, transmission security exactly on an insecure network or a transit record; each verdict is compliant exactly when its issue list is empty, holds at most its own two issue kinds in source order, and reports exactly the checks that flag something; only audit can warn |
| Engine.ProcessEvidence | src/processors/evidence_processor.py:17-28 | the envelope is stamped with the instant; its controls are judged on their evidence slices as in `MapToHipaaControls`, and only audit can warn; its summary holds the findings total, the CRITICAL and HIGH counts, the encryption rate and the audit coverage, agreeing with the roll-up; its SCC roll-up splits the encryption records into ACTIVE and the rest; its BigQuery roll-up holds the log total, the distinct users, and the configs with and without encryption |
| Engine.RollupsAgreeWithVerdicts | src/processors/evidence_processor.py:232-240 | a non-compliant encryption count makes integrity non-compliant, and coverage below 100 over a positive span makes audit non-compliant or a warning |
| Engine.EmptyEvidenceIsCompliant | src/processors/evidence_processor.py:17-316 | with empty evidence every control is compliant with no issues and every count and rate is 0 |
| Config.FirstMissing | src/config.py:30-32 | nothing is missing exactly when every required key is present; otherwise the result is the first absent key in list order |
| Config.FirstMissingLocal | src/config.py:30-32 | the search looks at nothing but the required keys |
| Config.ValidateGcpConfig | src/config.py:38-43 | succeeds exactly when both fields are present; otherwise names `project_id` before `organization_id` |
| Config.ValidateHipaaControlsConfig | src/config.py:45-56 | succeeds exactly when all four controls are present; otherwise names the first missing one in list order |
| Config.ValidateReportingConfig | src/config.py:58-66 | succeeds exactly when both fields are present and the format is "pdf"; a missing field is reported before the format; a string section holding both names fails as not indexable; a present but wrong format is reported as unsupported |
| Config.ValidateConfig | src/config.py:27-36 | a missing section is always what is reported, and it is the first missing one in order; with every section present, the gcp failure wins, then the hipaa_controls failure, else the reporting outcome |
| Config.ValidateConfigIsWellFormed | src/config.py:27-66 | validation succeeds exactly for configurations meeting every requirement, independently of check order |
| Config.ExtraSectionsIgnored | src/config.py:29-36 | adding a section outside the three required ones never changes the outcome |
| Config.ExtraGcpFieldsIgnored | src/config.py:40-43 | adding a field outside the two required ones never changes the GCP outcome |
| Config.ExtraControlsIgnored | src/config.py:47-56 | adding a control outside the four required ones never changes the outcome |
| Config.ExtraReportingFieldsIgnored | src/config.py:60-66 | adding a field outside the two required ones never changes the reporting outcome |
| Report.ControlTitle | src/reporters/pdf_reporter.py:238-246 | a known key gets its fixed section heading; any other key gets a same-length title with no `_` that matches the spaced key ignoring case and is capitalised exactly at the start of each run of letters |
| Report.FallbackTitle | src/reporters/pdf_reporter.py:246 | the fallback title keeps the length, has no `_`, matches the spaced key ignoring case, and is capitalised exactly at word starts |
| Report.EngineKeysHaveTitles | src/reporters/pdf_reporter.py:240-245 | every key of the engine's controls dictionary has a fixed heading citing a section of 45 CFR 164.312 |
| Report.TruncateDetails | src/reporters/pdf_reporter.py:223 | text of at most 100 characters is unchanged; longer text keeps its first 100 characters followed by "...", 103 in all |
| Report.IssuesTable | src/reporters/pdf_reporter.py:221-228 | the table starts with the header row and has one more row than there are issues |
| Report.IssueRows | src/reporters/pdf_reporter.py:222-228 | one row per issue, in input order, each showing its issue |
| Report.IssuesTableShows | src/reporters/pdf_reporter.py:221-228 | below the header, row i + 1 holds issue i's type, a count cell that reads back as its count, and its abridged details |
| Report.IssueRow | src/reporters/pdf_reporter.py:223-228 | a row holds the issue's type, a count cell that reads back as the count, and details of at most 103 characters |
| Report.StatusRow | src/reporters/pdf_reporter.py:143-150 | the status cell has no lower-case letter and lower-cases back to the status name, and the count cell reads back as the number of issues |

## Left out

- The collectors (Security Command Center and BigQuery clients), monitoring,
  the command-line entry point and `load_config`'s file reading are I/O and
  are not modelled. The evidence they produce is the input here.
- The evaluation instant: the source reads the clock separately for the
  envelope and for each control's `last_validated`. The model passes a
  single instant `now`, so differences between those clock reads are not
  modelled.
- pandas: `to_datetime` parsing, `DataFrame` construction and `NaT`
  handling are replaced by integer-second timestamps and a functional sort.
  Hours are not converted, since they cancel in the coverage ratio.
- Floating-point rounding and the report's number formatting: rates are
  exact reals.
- The Python text form (`str`) of records and of an issue's sample: the
  record's text is a field, and the sample's text is a parameter `render` of
  the issues table.
- Case mapping, title-casing and substring search cover ASCII letters only.
- The gap sample: the source stores `significant_gaps.head().to_dict()`,
  keyed by DataFrame row index. The model stores the first five gaps as
  (start, end) pairs in chronological order.
- The order of the controls dictionary: it is a record, and the reporter's
  iteration order over it is not modelled.
- YAML values other than strings and mappings (numbers, lists, booleans) are
  not modelled. A string section answers `in` by substring search, as
  Python does. Indexing a string `reporting` section fails, like Python's
  `TypeError` (`ReportingNotIndexable`).
- Evidence dictionaries that lack a key the engine reads (a Python
  `KeyError`) cannot be built: every record has every field.
- The processor's constructor (src/processors/evidence_processor.py:13-15)
  reads `config['hipaa_controls']` and never uses it. It is not modelled, so
  neither is the `KeyError` it raises when that section is absent: the
  engine's operations take the evidence alone.
- The reporter's layout, styles, the "Last Validated" cell (a formatted
  timestamp) and the table header of the status table are not modelled.
- Report.StatusRow: states that the status cell has no lower-case letter and
  lower-cases back to the status name, rather than naming the literal strings
  `COMPLIANT`, `WARNING` and `NON_COMPLIANT`.
- Timeline.Gaps: its contract bounds the count and the length of each gap.
  Which pairs are gaps is stated separately by `Timeline.GapsAreBigSteps`,
  and their chronological order by `Timeline.GapsInOrder`.

=== FILE: config.dfy ===
/** Validation of the loaded configuration. Each validator walks a fixed list
    of required keys and stops at the first one that is missing, the way the
    source raises `ValueError` on the first missing key. YAML mappings are
    `Mapping` nodes and YAML strings are `Scalar` nodes. */
module Config {
  import opened Wrappers
  import opened Text

  datatype Node = Scalar(text: string) | Mapping(entries: map<string, Node>)

  /** The parsed top-level YAML mapping. */
  type Configuration = map<string, Node>

  datatype ConfigError =
    | MissingSection(section: string)
    | MissingGcpField(field: string)
    | MissingControl(control: string)
    | MissingReportingField(field: string)
    | ReportingNotIndexable
    | UnsupportedReportFormat

  const RequiredSections: seq<string> := ["gcp", "hipaa_controls", "reporting"]
  const RequiredGcpFields: seq<string> := ["project_id", "organization_id"]
  const RequiredControls: seq<string> := ["access_control", "audit_controls", "integrity", "transmission_security"]
  const RequiredReportingFields: seq<string> := ["report_format", "schedule"]
  const SupportedFormat: Node := Scalar("pdf")

  /** Python's `key in node`: a key of a mapping, or a substring of a string. */
  predicate Has(n: Node, key: string)
  {
    match n
    case Mapping(m) => key in m
    case Scalar(s) => Contains(s, key)
  }

  /** The first key of `required` that `present` rejects, if any. */
  function FirstMissing(required: seq<string>, present: string -> bool): (r: Option<string>)
    ensures r.None? <==> forall i :: 0 <= i < |required| ==> present(required[i])
    ensures r.Some? ==> exists i :: 0 <= i < |required| && required[i] == r.value && !present(required[i]) &&
                          forall j :: 0 <= j < i ==> present(required[j])
    decreases |required|
  {
    if |required| == 0 then None
    else if !present(required[0]) then Some(required[0])
    else
      var r := FirstMissing(required[1..], present);
      if r.Some? then
        var i :| 0 <= i < |required| - 1 && required[1..][i] == r.value && !present(required[1..][i]) &&
                 forall j :: 0 <= j < i ==> present(required[1..][j]);
        assert required[i + 1] == r.value;
        r
      else r
  }

  function ValidateGcpConfig(gcp: Node): (r: Result<(), ConfigError>)
    ensures r.Success? <==> Has(gcp, "project_id") && Has(gcp, "organization_id")
    ensures !Has(gcp, "project_id") ==> r == Failure(MissingGcpField("project_id"))
    ensures Has(gcp, "project_id") && !Has(gcp, "organization_id") ==>
      r == Failure(MissingGcpField("organization_id"))
  {
    match FirstMissing(RequiredGcpFields, k => Has(gcp, k))
    case Some(field) => Failure(MissingGcpField(field))
    case None => Success(())
  }

  function ValidateHipaaControlsConfig(controls: Node): (r: Result<(), ConfigError>)
    ensures r.Success? <==> forall i :: 0 <= i < |RequiredControls| ==> Has(controls, RequiredControls[i])
    ensures r.Failure? ==>
      exists i :: (0 <= i < |RequiredControls| &&
        r.error == MissingControl(RequiredControls[i]) && !Has(controls, RequiredControls[i]) &&
        forall j :: 0 <= j < i ==> Has(controls, RequiredControls[j]))
  {
    match FirstMissing(RequiredControls, k => Has(controls, k))
    case Some(control) => Failure(MissingControl(control))
    case None => Success(())
  }

  /** Both fields must be present before the format is read; indexing a
      string section fails in Python with `TypeError`. */
  function ValidateReportingConfig(reporting: Node): (r: Result<(), ConfigError>)
    ensures r.Success? <==>
      reporting.Mapping? && "report_format" in reporting.entries && "schedule" in reporting.entries &&
      reporting.entries["report_format"] == SupportedFormat
    ensures !Has(reporting, "report_format") ==> r == Failure(MissingReportingField("report_format"))
    ensures Has(reporting, "report_format") && !Has(reporting, "schedule") ==>
      r == Failure(MissingReportingField("schedule"))
    ensures r == Failure(UnsupportedReportFormat) <==>
      reporting.Mapping? && "report_format" in reporting.entries && "schedule" in reporting.entries &&
      reporting.entries["report_format"] != SupportedFormat
    ensures reporting.Scalar? && Has(reporting, "report_format") && Has(reporting, "schedule") ==>
      r == Failure(ReportingNotIndexable)
  {
    match FirstMissing(RequiredReportingFields, k => Has(reporting, k))
    case Some(field) => Failure(MissingReportingField(field))
    case None =>
      match reporting
      case Scalar(_) => Failure(ReportingNotIndexable)
      case Mapping(m) =>
        if m["report_format"] != SupportedFormat then Failure(UnsupportedReportFormat)
        else Success(())
  }

  /** A missing top-level section is reported before any section is looked
      into; then `gcp`, `hipaa_controls` and `reporting` are validated in
      that order and the first failure is the result. */
  function ValidateConfig(config: Configuration): (r: Result<(), ConfigError>)
    ensures (exists i :: 0 <= i < |RequiredSections| && RequiredSections[i] !in config) ==> r.Failure? && r.error.MissingSection?
    ensures r.Failure? && r.error.MissingSection? ==>
      exists i :: 0 <= i < |RequiredSections| && r.error == MissingSection(RequiredSections[i]) &&
        RequiredSections[i] !in config && forall j :: 0 <= j < i ==> RequiredSections[j] in config
    ensures "gcp" in config && "hipaa_controls" in config && "reporting" in config ==>
      if ValidateGcpConfig(config["gcp"]).Failure? then r == ValidateGcpConfig(config["gcp"])
      else if ValidateHipaaControlsConfig(config["hipaa_controls"]).Failure? then
        r == ValidateHipaaControlsConfig(config["hipaa_controls"])
      else r == ValidateReportingConfig(config["reporting"])
  {
    match FirstMissing(RequiredSections, k => k in config)
    case Some(section) => Failure(MissingSection(section))
    case None =>
      var gcp := ValidateGcpConfig(config["gcp"]);
      if gcp.Failure? then gcp
      else
        var controls := ValidateHipaaControlsConfig(config["hipaa_controls"]);
        if controls.Failure? then controls
        else ValidateReportingConfig(config["reporting"])
  }

  /** What a valid configuration is, stated without the order of the checks. */
  predicate WellFormed(config: Configuration)
  {
    && "gcp" in config && "hipaa_controls" in config && "reporting" in config
    && Has(config["gcp"], "project_id") && Has(config["gcp"], "organization_id")
    && (forall i :: 0 <= i < |RequiredControls| ==> Has(config["hipaa_controls"], RequiredControls[i]))
    && var reporting := config["reporting"];
       reporting.Mapping? && "report_format" in reporting.entries && "schedule" in reporting.entries &&
       reporting.entries["report_format"] == SupportedFormat
  }

  /** Validation succeeds exactly for well-formed configurations. */
  lemma ValidateConfigIsWellFormed(config: Configuration)
    ensures ValidateConfig(config).Success? <==> WellFormed(config)
  {
    if "gcp" in config && "hipaa_controls" in config && "reporting" in config {
      assert forall i :: 0 <= i < |RequiredSections| ==> RequiredSections[i] in config;
    } else {
      assert ValidateConfig(config).Failure?;
    }
  }

  /** `FirstMissing` looks at nothing but the required keys. */
  lemma {:induction false} FirstMissingLocal(required: seq<string>, p: string -> bool, q: string -> bool)
    requires forall i :: 0 <= i < |required| ==> p(required[i]) == q(required[i])
    ensures FirstMissing(required, p) == FirstMissing(required, q)
    decreases |required|
  {
    if |required| > 0 {
      FirstMissingLocal(required[1..], p, q);
    }
  }

  /** Keys outside the three sections are never inspected. */
  lemma ExtraSectionsIgnored(config: Configuration, key: string, value: Node)
    requires key !in RequiredSections
    ensures ValidateConfig(config[key := value]) == ValidateConfig(config)
  {
    var c2 := config[key := value];
    FirstMissingLocal(RequiredSections, k => k in c2, k => k in config);
  }

  /** Fields of a section outside its required list are never inspected. */
  lemma ExtraGcpFieldsIgnored(m: map<string, Node>, key: string, value: Node)
    requires key !in RequiredGcpFields
    ensures ValidateGcpConfig(Mapping(m[key := value])) == ValidateGcpConfig(Mapping(m))
  {
    FirstMissingLocal(RequiredGcpFields, k => Has(Mapping(m[key := value]), k), k => Has(Mapping(m), k));
  }

  lemma ExtraControlsIgnored(m: map<string, Node>, key: string, value: Node)
    requires key !in RequiredControls
    ensures ValidateHipaaControlsConfig(Mapping(m[key := value])) == ValidateHipaaControlsConfig(Mapping(m))
  {
    FirstMissingLocal(RequiredControls, k => Has(Mapping(m[key := value]), k), k => Has(Mapping(m), k));
  }

  lemma ExtraReportingFieldsIgnored(m: map<string, Node>, key: string, value: Node)
    requires key !in RequiredReportingFields
    ensures ValidateReportingConfig(Mapping(m[key := value])) == ValidateReportingConfig(Mapping(m))
  {
    FirstMissingLocal(RequiredReportingFields, k => Has(Mapping(m[key := value]), k), k => Has(Mapping(m), k));
  }
}

=== FILE: controls.dfy ===
/** The four HIPAA Security Rule controls the engine evaluates (45 CFR
    164.312(a)(1) access control, (b) audit controls, (c)(1) integrity and
    (e)(1) transmission security). Each validator runs two checks over its
    evidence lists; a check that flags anything adds one issue carrying the
    full count and the first five flagged items, and assigns the control's
    status. The status is the one assigned by the last check that fired. */
module Controls {
  import opened Seqs
  import opened Text
  import opened Timeline
  import opened Evidence

  datatype Status = Compliant | Warning | NonCompliant

  /** The status string the source stores. */
  function StatusName(s: Status): string
  {
    match s
    case Compliant => "compliant"
    case Warning => "warning"
    case NonCompliant => "non_compliant"
  }

  datatype IssueKind =
    | UnauthorizedAccess
    | IamIssues
    | AuditLogGaps
    | SuspiciousAccessPatterns
    | UnencryptedAssets
    | IntegrityIssues
    | InsecureNetworks
    | TransitEncryptionIssues

  /** The issue `type` string the source stores. */
  function KindName(k: IssueKind): string
  {
    match k
    case UnauthorizedAccess => "unauthorized_access"
    case IamIssues => "iam_issues"
    case AuditLogGaps => "audit_log_gaps"
    case SuspiciousAccessPatterns => "suspicious_access_patterns"
    case UnencryptedAssets => "unencrypted_assets"
    case IntegrityIssues => "integrity_issues"
    case InsecureNetworks => "insecure_networks"
    case TransitEncryptionIssues => "transit_encryption_issues"
  }

  /** Every kind except suspicious access patterns is one whose check sets
      `non_compliant`; suspicious patterns set `warning`. */
  predicate IsBlocking(k: IssueKind)
  {
    k != SuspiciousAccessPatterns
  }

  /** One sample entry of an issue. */
  datatype Item =
    | LogItem(log: AccessLog)
    | PatternItem(pattern: AccessPattern)
    | FindingItem(finding: SecurityFinding)
    | EncryptionItem(record: EncryptionRecord)
    | NetworkItem(control: NetworkControl)
    | GapItem(gap: Gap)

  datatype Issue = Issue(kind: IssueKind, count: nat, details: seq<Item>)

  /** The verdict for one control; `lastValidated` is the evaluation instant. */
  datatype ControlResult = ControlResult(status: Status, issues: seq<Issue>, lastValidated: int)

  /** Number of flagged items an issue carries as examples. */
  const SampleSize: nat := 5

  /** Access counts strictly above this are suspicious; hard-coded in the source. */
  const SuspiciousAccessThreshold: int := 100

  function LogItems(xs: seq<AccessLog>): (r: seq<Item>)
    ensures |r| == |xs|
  {
    seq(|xs|, i requires 0 <= i < |xs| => LogItem(xs[i]))
  }

  function PatternItems(xs: seq<AccessPattern>): (r: seq<Item>)
    ensures |r| == |xs|
  {
    seq(|xs|, i requires 0 <= i < |xs| => PatternItem(xs[i]))
  }

  function FindingItems(xs: seq<SecurityFinding>): (r: seq<Item>)
    ensures |r| == |xs|
  {
    seq(|xs|, i requires 0 <= i < |xs| => FindingItem(xs[i]))
  }

  function EncryptionItems(xs: seq<EncryptionRecord>): (r: seq<Item>)
    ensures |r| == |xs|
  {
    seq(|xs|, i requires 0 <= i < |xs| => EncryptionItem(xs[i]))
  }

  function NetworkItems(xs: seq<NetworkControl>): (r: seq<Item>)
    ensures |r| == |xs|
  {
    seq(|xs|, i requires 0 <= i < |xs| => NetworkItem(xs[i]))
  }

  function GapItems(xs: seq<Gap>): (r: seq<Item>)
    ensures |r| == |xs|
  {
    seq(|xs|, i requires 0 <= i < |xs| => GapItem(xs[i]))
  }

  /** `issue` is the one a check raises for the list `flagged`: its count is
      the length of the whole list and its examples are the first
      `SampleSize` entries, in order. */
  predicate Summarises(issue: Issue, kind: IssueKind, flagged: seq<Item>)
  {
    issue.kind == kind && issue.count == |flagged| && issue.details == Take(flagged, SampleSize)
  }

  /** `issues` reports the check of `kind` faithfully: it holds an issue of
      that kind exactly when the check flagged something, and every such
      issue summarises the flagged list. */
  predicate Reports(issues: seq<Issue>, kind: IssueKind, flagged: seq<Item>)
  {
    && (|flagged| > 0 <==> exists i :: 0 <= i < |issues| && issues[i].kind == kind)
    && forall i :: 0 <= i < |issues| && issues[i].kind == kind ==> Summarises(issues[i], kind, flagged)
  }

  /** The issue (if any) one check appends. */
  function Raise(kind: IssueKind, flagged: seq<Item>): (r: seq<Issue>)
    ensures |flagged| == 0 ==> r == []
    ensures |flagged| > 0 ==> |r| == 1 && Summarises(r[0], kind, flagged)
  {
    if |flagged| == 0 then [] else [Issue(kind, |flagged|, Take(flagged, SampleSize))]
  }

  /** Two checks of different kinds, each appending its issue in turn,
      report both faithfully. */
  lemma RaiseBoth(a: IssueKind, flaggedA: seq<Item>, b: IssueKind, flaggedB: seq<Item>)
    requires a != b
    ensures Reports(Raise(a, flaggedA) + Raise(b, flaggedB), a, flaggedA)
    ensures Reports(Raise(a, flaggedA) + Raise(b, flaggedB), b, flaggedB)
  {
    var issues := Raise(a, flaggedA) + Raise(b, flaggedB);
    if |flaggedA| > 0 {
      assert issues[0].kind == a;
    }
    if |flaggedB| > 0 {
      assert issues[|issues| - 1].kind == b;
    }
  }

  /** The status the issues alone would justify if a blocking issue always
      won over an advisory one: compliant with no issues, non-compliant with
      a blocking issue, warning otherwise. */
  function DerivedStatus(issues: seq<Issue>): Status
  {
    if issues == [] then Compliant
    else if exists i :: 0 <= i < |issues| && IsBlocking(issues[i].kind) then NonCompliant
    else Warning
  }

  /** A control made of two checks that both assign `non_compliant`. */
  function BlockingChecks(a: IssueKind, flaggedA: seq<Item>, b: IssueKind, flaggedB: seq<Item>, now: int): (r: ControlResult)
    requires a != b && IsBlocking(a) && IsBlocking(b)
    ensures r.lastValidated == now
    ensures r.status == NonCompliant <==> |flaggedA| > 0 || |flaggedB| > 0
    ensures r.status == Compliant <==> r.issues == []
    ensures r.status == DerivedStatus(r.issues)
    ensures Reports(r.issues, a, flaggedA) && Reports(r.issues, b, flaggedB)
    ensures |r.issues| <= 2
    ensures |r.issues| == 2 ==> r.issues[0].kind == a && r.issues[1].kind == b
  {
    var issues := Raise(a, flaggedA) + Raise(b, flaggedB);
    var status :=
      if |flaggedB| > 0 then NonCompliant
      else if |flaggedA| > 0 then NonCompliant
      else Compliant;
    assert issues != [] ==> IsBlocking(issues[0].kind);
    RaiseBoth(a, flaggedA, b, flaggedB);
    ControlResult(status, issues, now)
  }

  // ---- Access control, 45 CFR 164.312(a)(1) ----

  /** A permission-denied log entry. Only `ERROR` and `WARNING` count;
      `CRITICAL` entries are not flagged. */
  predicate IsDeniedAccess(log: AccessLog)
  {
    log.severity in ["ERROR", "WARNING"] && Contains(Lower(log.details), "permission denied")
  }

  /** A high-severity finding whose category mentions IAM. */
  predicate IsIamFinding(f: SecurityFinding)
  {
    Contains(Lower(f.category), "iam") && f.severity in ["HIGH", "CRITICAL"]
  }

  function ValidateAccessControl(findings: seq<SecurityFinding>, logs: seq<AccessLog>, now: int): (r: ControlResult)
    ensures r.lastValidated == now
    ensures r.status != Warning
    ensures r.status == NonCompliant <==>
      (exists l :: l in logs && IsDeniedAccess(l)) || (exists f :: f in findings && IsIamFinding(f))
    ensures r.status == Compliant <==> r.issues == []
    ensures r.status == DerivedStatus(r.issues)
    ensures Reports(r.issues, UnauthorizedAccess, LogItems(Filter(logs, IsDeniedAccess)))
    ensures Reports(r.issues, IamIssues, FindingItems(Filter(findings, IsIamFinding)))
    ensures |r.issues| == 2 ==> r.issues[0].kind == UnauthorizedAccess && r.issues[1].kind == IamIssues
    ensures |r.issues| <= 2
  {
    FilterNonEmpty(logs, IsDeniedAccess);
    FilterNonEmpty(findings, IsIamFinding);
    BlockingChecks(
      UnauthorizedAccess, LogItems(Filter(logs, IsDeniedAccess)),
      IamIssues, FindingItems(Filter(findings, IsIamFinding)),
      now)
  }

  /** More evidence never clears an access-control violation. */
  lemma AccessControlMonotone(findings: seq<SecurityFinding>, logs: seq<AccessLog>,
                              moreFindings: seq<SecurityFinding>, moreLogs: seq<AccessLog>, now: int)
    requires ValidateAccessControl(findings, logs, now).status == NonCompliant
    ensures ValidateAccessControl(findings + moreFindings, logs + moreLogs, now).status == NonCompliant
  {
    if l :| l in logs && IsDeniedAccess(l) {
      assert l in logs + moreLogs;
    } else {
      var f :| f in findings && IsIamFinding(f);
      assert f in findings + moreFindings;
    }
  }

  // ---- Audit controls, 45 CFR 164.312(b) ----

  /** The gaps of the access-log timestamps, in chronological order. */
  function LogGaps(logs: seq<AccessLog>): seq<Gap>
  {
    Gaps(Sort(Timestamps(logs)))
  }

  predicate IsSuspicious(p: AccessPattern)
  {
    p.accessCount > SuspiciousAccessThreshold
  }

  /** The source assigns `non_compliant` for gaps and then `warning` for
      suspicious patterns, so a suspicious pattern hides a gap verdict. */
  function ValidateAuditControls(logs: seq<AccessLog>, patterns: seq<AccessPattern>, now: int): (r: ControlResult)
    ensures r.lastValidated == now
    ensures r.status == Warning <==> exists p :: p in patterns && IsSuspicious(p)
    ensures r.status == NonCompliant <==>
      LogGaps(logs) != [] && !(exists p :: p in patterns && IsSuspicious(p))
    ensures r.status == Compliant <==> r.issues == []
    ensures Reports(r.issues, AuditLogGaps, GapItems(LogGaps(logs)))
    ensures Reports(r.issues, SuspiciousAccessPatterns, PatternItems(Filter(patterns, IsSuspicious)))
    ensures |r.issues| <= 2
    ensures |r.issues| == 2 ==> r.issues[0].kind == AuditLogGaps && r.issues[1].kind == SuspiciousAccessPatterns
  {
    var gaps := GapItems(LogGaps(logs));
    var suspicious := PatternItems(Filter(patterns, IsSuspicious));
    var issues := Raise(AuditLogGaps, gaps) + Raise(SuspiciousAccessPatterns, suspicious);
    var status :=
      if |suspicious| > 0 then Warning
      else if |gaps| > 0 then NonCompliant
      else Compliant;
    RaiseBoth(AuditLogGaps, gaps, SuspiciousAccessPatterns, suspicious);
    FilterNonEmpty(patterns, IsSuspicious);
    ControlResult(status, issues, now)
  }

  /** The gap issue's count is the number of consecutive sorted timestamps
      more than an hour apart; fewer than two log entries never raise it. */
  lemma AuditGapIssue(logs: seq<AccessLog>, patterns: seq<AccessPattern>, now: int)
    ensures var r := ValidateAuditControls(logs, patterns, now);
      forall i :: 0 <= i < |r.issues| && r.issues[i].kind == AuditLogGaps ==>
        r.issues[i].count == |Filter(Steps(Sort(Timestamps(logs))), IsLongStep)|
    ensures |logs| < 2 ==>
      var r := ValidateAuditControls(logs, patterns, now);
      forall i :: 0 <= i < |r.issues| ==> r.issues[i].kind != AuditLogGaps
  {
    GapCount(Sort(Timestamps(logs)));
  }

  /** The audit verdict differs from the status its issues justify exactly
      when both checks fire: the gap issue is blocking, yet the status is
      `warning`. */
  lemma AuditStatusOverride(logs: seq<AccessLog>, patterns: seq<AccessPattern>, now: int)
    ensures var r := ValidateAuditControls(logs, patterns, now);
      r.status != DerivedStatus(r.issues) <==>
        LogGaps(logs) != [] && exists p :: p in patterns && IsSuspicious(p)
  {
    var r := ValidateAuditControls(logs, patterns, now);
    if LogGaps(logs) != [] {
      assert r.issues[0].kind == AuditLogGaps;
    }
  }

  // ---- Integrity, 45 CFR 164.312(c)(1) ----

  predicate IsUnencrypted(e: EncryptionRecord)
  {
    e.status != "ACTIVE"
  }

  predicate IsIntegrityFinding(f: SecurityFinding)
  {
    Contains(Lower(f.category), "integrity") && f.severity in ["HIGH", "CRITICAL"]
  }

  function ValidateIntegrity(findings: seq<SecurityFinding>, encryption: seq<EncryptionRecord>, now: int): (r: ControlResult)
    ensures r.lastValidated == now
    ensures r.status != Warning
    ensures r.status == NonCompliant <==>
      (exists e :: e in encryption && IsUnencrypted(e)) || (exists f :: f in findings && IsIntegrityFinding(f))
    ensures r.status == Compliant <==> r.issues == []
    ensures r.status == DerivedStatus(r.issues)
    ensures Reports(r.issues, UnencryptedAssets, EncryptionItems(Filter(encryption, IsUnencrypted)))
    ensures Reports(r.issues, IntegrityIssues, FindingItems(Filter(findings, IsIntegrityFinding)))
    ensures |r.issues| == 2 ==> r.issues[0].kind == UnencryptedAssets && r.issues[1].kind == IntegrityIssues
    ensures |r.issues| <= 2
  {
    FilterNonEmpty(encryption, IsUnencrypted);
    FilterNonEmpty(findings, IsIntegrityFinding);
    BlockingChecks(
      UnencryptedAssets, EncryptionItems(Filter(encryption, IsUnencrypted)),
      IntegrityIssues, FindingItems(Filter(findings, IsIntegrityFinding)),
      now)
  }

  /** More evidence never clears an integrity violation. */
  lemma IntegrityMonotone(findings: seq<SecurityFinding>, encryption: seq<EncryptionRecord>,
                          moreFindings: seq<SecurityFinding>, moreEncryption: seq<EncryptionRecord>, now: int)
    requires ValidateIntegrity(findings, encryption, now).status == NonCompliant
    ensures ValidateIntegrity(findings + moreFindings, encryption + moreEncryption, now).status == NonCompliant
  {
    if e :| e in encryption && IsUnencrypted(e) {
      assert e in encryption + moreEncryption;
    } else {
      var f :| f in findings && IsIntegrityFinding(f);
      assert f in findings + moreFindings;
    }
  }

  // ---- Transmission security, 45 CFR 164.312(e)(1) ----

  predicate IsInsecureNetwork(n: NetworkControl)
  {
    n.status != "ACTIVE"
  }

  /** An unencrypted record whose whole text form mentions "transit"
      anywhere, not only in its category. */
  predicate IsTransitIssue(e: EncryptionRecord)
  {
    Contains(Lower(e.text), "transit") && e.status != "ACTIVE"
  }

  function ValidateTransmissionSecurity(network: seq<NetworkControl>, encryption: seq<EncryptionRecord>, now: int): (r: ControlResult)
    ensures r.lastValidated == now
    ensures r.status != Warning
    ensures r.status == NonCompliant <==>
      (exists n :: n in network && IsInsecureNetwork(n)) || (exists e :: e in encryption && IsTransitIssue(e))
    ensures r.status == Compliant <==> r.issues == []
    ensures r.status == DerivedStatus(r.issues)
    ensures Reports(r.issues, InsecureNetworks, NetworkItems(Filter(network, IsInsecureNetwork)))
    ensures Reports(r.issues, TransitEncryptionIssues, EncryptionItems(Filter(encryption, IsTransitIssue)))
    ensures |r.issues| == 2 ==> r.issues[0].kind == InsecureNetworks && r.issues[1].kind == TransitEncryptionIssues
    ensures |r.issues| <= 2
  {
    FilterNonEmpty(network, IsInsecureNetwork);
    FilterNonEmpty(encryption, IsTransitIssue);
    BlockingChecks(
      InsecureNetworks, NetworkItems(Filter(network, IsInsecureNetwork)),
      TransitEncryptionIssues, EncryptionItems(Filter(encryption, IsTransitIssue)),
      now)
  }

  /** Every transit-encryption issue is also an unencrypted asset, so the
      transit count never exceeds the unencrypted count, and a transit issue
      implies an integrity violation. */
  lemma TransitWithinUnencrypted(findings: seq<SecurityFinding>, network: seq<NetworkControl>,
                                 encryption: seq<EncryptionRecord>, now: int)
    ensures |Filter(encryption, IsTransitIssue)| <= |Filter(encryption, IsUnencrypted)|
    ensures ValidateTransmissionSecurity(network, encryption, now).status == NonCompliant &&
            !(exists n :: n in network && IsInsecureNetwork(n)) ==>
            ValidateIntegrity(findings, encryption, now).status == NonCompliant
  {
    FilterMonotone(encryption, IsTransitIssue, IsUnencrypted);
  }

  /** More evidence never clears a transmission-security violation. */
  lemma TransmissionMonotone(network: seq<NetworkControl>, encryption: seq<EncryptionRecord>,
                             moreNetwork: seq<NetworkControl>, moreEncryption: seq<EncryptionRecord>, now: int)
    requires ValidateTransmissionSecurity(network, encryption, now).status == NonCompliant
    ensures ValidateTransmissionSecurity(network + moreNetwork, encryption + moreEncryption, now).status == NonCompliant
  {
    if n :| n in network && IsInsecureNetwork(n) {
      assert n in network + moreNetwork;
    } else {
      var e :| e in encryption && IsTransitIssue(e);
      assert e in encryption + moreEncryption;
    }
  }

  /** The audit verdict is not monotone: two log entries two hours apart are
      non-compliant, and adding one suspicious access pattern turns the
      verdict into `warning`. */
  lemma AuditSuspicionHidesGap(now: int)
    ensures var logs := [AccessLog(0, "u", "a", "r", "INFO", ""), AccessLog(7200, "u", "a", "r", "INFO", "")];
      && ValidateAuditControls(logs, [], now).status == NonCompliant
      && ValidateAuditControls(logs, [AccessPattern("u", "r", 101, 0, 7200)], now).status == Warning
  {
    TwoHourGap();
    var p := AccessPattern("u", "r", 101, 0, 7200);
    assert p in [p] && IsSuspicious(p);
  }

  lemma TwoHourGap()
    ensures LogGaps([AccessLog(0, "u", "a", "r", "INFO", ""), AccessLog(7200, "u", "a", "r", "INFO", "")]) != []
  {
    var logs := [AccessLog(0, "u", "a", "r", "INFO", ""), AccessLog(7200, "u", "a", "r", "INFO", "")];
    var ts := Timestamps(logs);
    assert ts == [0, 7200];
    SortIsCanonical(ts, ts);
    assert Gaps(ts) == [Gap(0, 7200)] + Gaps([7200]);
  }
}

=== FILE: engine.dfy ===
/** The evidence processor: it runs the four control validators, rolls the
    evidence of each source up into counts, and summarises the run with two
    percentages. The evaluation instant, read from the clock in the source,
    is a parameter. */
module Engine {
  import opened Seqs
  import opened Percent
  import opened Timeline
  import opened Evidence
  import opened Controls

  /** The four keys of the controls dictionary. */
  datatype ControlKey = AccessControlKey | AuditControlsKey | IntegrityKey | TransmissionSecurityKey

  /** The dictionary key the source uses for each control. */
  function KeyName(k: ControlKey): string
  {
    match k
    case AccessControlKey => "access_control"
    case AuditControlsKey => "audit_controls"
    case IntegrityKey => "integrity"
    case TransmissionSecurityKey => "transmission_security"
  }

  /** The controls dictionary. Its keys are fixed, so it is a record with one
      field per key. */
  datatype ControlVerdicts = ControlVerdicts(
    accessControl: ControlResult,
    auditControls: ControlResult,
    integrity: ControlResult,
    transmissionSecurity: ControlResult)
  {
    /** The verdict stored under a key. */
    function Get(k: ControlKey): ControlResult
    {
      match k
      case AccessControlKey => accessControl
      case AuditControlsKey => auditControls
      case IntegrityKey => integrity
      case TransmissionSecurityKey => transmissionSecurity
    }

    /** Every verdict was stamped with the instant `now`. */
    predicate StampedAt(now: int)
    {
      && accessControl.lastValidated == now
      && auditControls.lastValidated == now
      && integrity.lastValidated == now
      && transmissionSecurity.lastValidated == now
    }
  }

  /** Counts over the Security Command Center evidence. */
  datatype SccRollup = SccRollup(
    criticalFindings: nat,
    highFindings: nat,
    encryptionCompliant: nat,
    encryptionNonCompliant: nat)

  /** Counts over the BigQuery evidence. */
  datatype BqRollup = BqRollup(
    totalAccessLogs: nat,
    uniqueUsers: nat,
    configsCompliant: nat,
    configsNonCompliant: nat)

  datatype Summary = Summary(
    totalAssetsReviewed: nat,
    criticalFindings: nat,
    highFindings: nat,
    encryptionComplianceRate: real,
    auditLogCoverage: real)

  /** The envelope handed to the reporter. */
  datatype ProcessedEvidence = ProcessedEvidence(
    timestamp: int,
    controls: ControlVerdicts,
    summary: Summary,
    scc: SccRollup,
    bigquery: BqRollup)

  predicate IsCritical(f: SecurityFinding) { f.severity == "CRITICAL" }
  predicate IsHigh(f: SecurityFinding) { f.severity == "HIGH" }
  predicate IsEncrypted(e: EncryptionRecord) { e.status == "ACTIVE" }
  predicate HasEncryption(c: TableConfig) { c.encryption.Some? }
  predicate LacksEncryption(c: TableConfig) { c.encryption.None? }

  function ProcessSccEvidence(scc: SccEvidence): (r: SccRollup)
    ensures r.criticalFindings + r.highFindings <= |scc.securityFindings|
    ensures r.encryptionCompliant + r.encryptionNonCompliant == |scc.encryptionStatus|
    ensures r.encryptionNonCompliant > 0 <==> exists e :: e in scc.encryptionStatus && IsUnencrypted(e)
    ensures r.criticalFindings == |Filter(scc.securityFindings, IsCritical)|
    ensures r.highFindings == |Filter(scc.securityFindings, IsHigh)|
    ensures r.encryptionCompliant == |Filter(scc.encryptionStatus, IsEncrypted)|
  {
    var findings := scc.securityFindings;
    var encryption := scc.encryptionStatus;
    FilterDisjoint(findings, IsCritical, IsHigh);
    FilterComplement(encryption, IsEncrypted, IsUnencrypted);
    FilterNonEmpty(encryption, IsUnencrypted);
    SccRollup(
      |Filter(findings, IsCritical)|,
      |Filter(findings, IsHigh)|,
      |Filter(encryption, IsEncrypted)|,
      |Filter(encryption, IsUnencrypted)|)
  }

  /** The distinct principals that appear in the access logs. */
  function Users(logs: seq<AccessLog>): set<string>
  {
    set l | l in logs :: l.user
  }

  lemma {:induction false} UsersBound(logs: seq<AccessLog>)
    ensures |Users(logs)| <= |logs|
    ensures |Users(logs)| == 0 <==> |logs| == 0
    decreases |logs|
  {
    if |logs| > 0 {
      var rest := logs[1..];
      UsersBound(rest);
      assert logs == [logs[0]] + rest;
      assert Users(logs) == {logs[0].user} + Users(rest);
    } else {
      assert Users(logs) == {};
    }
  }

  function ProcessBqEvidence(bq: BqEvidence): (r: BqRollup)
    ensures r.totalAccessLogs == |bq.accessLogs|
    ensures r.uniqueUsers <= r.totalAccessLogs
    ensures r.uniqueUsers == 0 <==> r.totalAccessLogs == 0
    ensures r.uniqueUsers == |Users(bq.accessLogs)|
    ensures r.configsCompliant == |Filter(bq.securityConfigs, HasEncryption)|
    ensures r.configsCompliant + r.configsNonCompliant == |bq.securityConfigs|
  {
    UsersBound(bq.accessLogs);
    FilterComplement(bq.securityConfigs, HasEncryption, LacksEncryption);
    BqRollup(
      |bq.accessLogs|,
      |Users(bq.accessLogs)|,
      |Filter(bq.securityConfigs, HasEncryption)|,
      |Filter(bq.securityConfigs, LacksEncryption)|)
  }

  /** Percentage of encryption records with status `ACTIVE`; 0 without records. */
  function EncryptionRate(records: seq<EncryptionRecord>): (r: real)
    ensures 0.0 <= r <= 100.0
    ensures r == 0.0 <==> forall e :: e in records ==> !IsEncrypted(e)
    ensures r == 100.0 <==> |records| > 0 && forall e :: e in records ==> IsEncrypted(e)
    ensures |records| > 0 ==> r == 100.0 * (|Filter(records, IsEncrypted)| as real / |records| as real)
  {
    EncryptedCount(records);
    Percentage(|Filter(records, IsEncrypted)|, |records|)
  }

  lemma EncryptedCount(records: seq<EncryptionRecord>)
    ensures |Filter(records, IsEncrypted)| == 0 <==> forall e :: e in records ==> !IsEncrypted(e)
    ensures |Filter(records, IsEncrypted)| == |records| <==> forall e :: e in records ==> IsEncrypted(e)
  {
    FilterNonEmpty(records, IsEncrypted);
    FilterFull(records, IsEncrypted);
  }

  /** Percentage of the logged time span not lost to gaps. When the logs span
      a positive time, coverage is full exactly when the audit control finds
      no gap. */
  function AuditCoverage(logs: seq<AccessLog>): (r: real)
    ensures 0.0 <= r <= 100.0
    ensures Span(Timestamps(logs)) == 0 ==> r == 0.0
    ensures Span(Timestamps(logs)) > 0 ==> (r == 100.0 <==> LogGaps(logs) == [])
    ensures Span(Timestamps(logs)) > 0 ==>
      var long := Sum(Filter(Steps(Sort(Timestamps(logs))), IsLongStep));
      0 <= long <= Span(Timestamps(logs)) && r == Percentage(Span(Timestamps(logs)) - long, Span(Timestamps(logs)))
  {
    var ts := Timestamps(logs);
    if Span(ts) > 0 then CoverageFull(ts); CoverageFormula(ts); Coverage(ts) else Coverage(ts)
  }

  function GenerateSummary(scc: SccEvidence, bq: BqEvidence): (r: Summary)
    ensures r.totalAssetsReviewed == |scc.securityFindings|
    ensures r.criticalFindings + r.highFindings <= r.totalAssetsReviewed
    ensures r.criticalFindings == |Filter(scc.securityFindings, IsCritical)|
    ensures r.highFindings == |Filter(scc.securityFindings, IsHigh)|
    ensures 0.0 <= r.encryptionComplianceRate <= 100.0
    ensures r.encryptionComplianceRate == EncryptionRate(scc.encryptionStatus)
    ensures 0.0 <= r.auditLogCoverage <= 100.0
    ensures r.auditLogCoverage == AuditCoverage(bq.accessLogs)
  {
    FilterDisjoint(scc.securityFindings, IsCritical, IsHigh);
    Summary(
      |scc.securityFindings|,
      |Filter(scc.securityFindings, IsCritical)|,
      |Filter(scc.securityFindings, IsHigh)|,
      EncryptionRate(scc.encryptionStatus),
      AuditCoverage(bq.accessLogs))
  }

  /** Access control is decided by the access logs and the findings. */
  predicate AccessJudgedOn(v: ControlResult, scc: SccEvidence, bq: BqEvidence)
  {
    && (v.status == Compliant <==> v.issues == [])
    && |v.issues| <= 2
    && (|v.issues| == 2 ==> v.issues[0].kind == UnauthorizedAccess && v.issues[1].kind == IamIssues)
    && (v.status == NonCompliant <==>
          (exists l :: l in bq.accessLogs && IsDeniedAccess(l)) ||
          (exists f :: f in scc.securityFindings && IsIamFinding(f)))
    && Reports(v.issues, UnauthorizedAccess, LogItems(Filter(bq.accessLogs, IsDeniedAccess)))
    && Reports(v.issues, IamIssues, FindingItems(Filter(scc.securityFindings, IsIamFinding)))
  }

  /** Audit controls are decided by the access logs and the access patterns. */
  predicate AuditJudgedOn(v: ControlResult, bq: BqEvidence)
  {
    && (v.status == Compliant <==> v.issues == [])
    && |v.issues| <= 2
    && (|v.issues| == 2 ==> v.issues[0].kind == AuditLogGaps && v.issues[1].kind == SuspiciousAccessPatterns)
    && (v.status == Warning <==> exists p :: p in bq.dataAccessPatterns && IsSuspicious(p))
    && (v.status == NonCompliant <==>
          LogGaps(bq.accessLogs) != [] && !(exists p :: p in bq.dataAccessPatterns && IsSuspicious(p)))
    && Reports(v.issues, AuditLogGaps, GapItems(LogGaps(bq.accessLogs)))
    && Reports(v.issues, SuspiciousAccessPatterns, PatternItems(Filter(bq.dataAccessPatterns, IsSuspicious)))
  }

  /** Integrity is decided by the encryption records and the findings. */
  predicate IntegrityJudgedOn(v: ControlResult, scc: SccEvidence)
  {
    && (v.status == Compliant <==> v.issues == [])
    && |v.issues| <= 2
    && (|v.issues| == 2 ==> v.issues[0].kind == UnencryptedAssets && v.issues[1].kind == IntegrityIssues)
    && (v.status == NonCompliant <==>
          (exists e :: e in scc.encryptionStatus && IsUnencrypted(e)) ||
          (exists f :: f in scc.securityFindings && IsIntegrityFinding(f)))
    && Reports(v.issues, UnencryptedAssets, EncryptionItems(Filter(scc.encryptionStatus, IsUnencrypted)))
    && Reports(v.issues, IntegrityIssues, FindingItems(Filter(scc.securityFindings, IsIntegrityFinding)))
  }

  /** Transmission security is decided by the network controls and the
      encryption records. */
  predicate TransmissionJudgedOn(v: ControlResult, scc: SccEvidence)
  {
    && (v.status == Compliant <==> v.issues == [])
    && |v.issues| <= 2
    && (|v.issues| == 2 ==> v.issues[0].kind == InsecureNetworks && v.issues[1].kind == TransitEncryptionIssues)
    && (v.status == NonCompliant <==>
          (exists n :: n in scc.networkControls && IsInsecureNetwork(n)) ||
          (exists e :: e in scc.encryptionStatus && IsTransitIssue(e)))
    && Reports(v.issues, InsecureNetworks, NetworkItems(Filter(scc.networkControls, IsInsecureNetwork)))
    && Reports(v.issues, TransitEncryptionIssues, EncryptionItems(Filter(scc.encryptionStatus, IsTransitIssue)))
  }

  // Each validator's contract establishes its control's part of `JudgedOn`;
  // the four steps are stated apart so that each proof stays small.

  lemma AccessJudged(scc: SccEvidence, bq: BqEvidence, now: int)
    ensures AccessJudgedOn(ValidateAccessControl(scc.securityFindings, bq.accessLogs, now), scc, bq)
  {
  }

  lemma AuditJudged(bq: BqEvidence, now: int)
    ensures AuditJudgedOn(ValidateAuditControls(bq.accessLogs, bq.dataAccessPatterns, now), bq)
  {
  }

  lemma IntegrityJudged(scc: SccEvidence, now: int)
    ensures IntegrityJudgedOn(ValidateIntegrity(scc.securityFindings, scc.encryptionStatus, now), scc)
  {
  }

  lemma TransmissionJudged(scc: SccEvidence, now: int)
    ensures TransmissionJudgedOn(ValidateTransmissionSecurity(scc.networkControls, scc.encryptionStatus, now), scc)
  {
  }

  /** Each verdict is decided by its own slices of the evidence, and each
      issue list reports exactly the checks that flag something. */
  predicate JudgedOn(v: ControlVerdicts, scc: SccEvidence, bq: BqEvidence)
  {
    && AccessJudgedOn(v.accessControl, scc, bq)
    && AuditJudgedOn(v.auditControls, bq)
    && IntegrityJudgedOn(v.integrity, scc)
    && TransmissionJudgedOn(v.transmissionSecurity, scc)
  }

  /** Every verdict carries the evaluation instant, each is judged on its own
      slices of the evidence, and only the audit control can end in
      `warning`. */
  function MapToHipaaControls(scc: SccEvidence, bq: BqEvidence, now: int): (r: ControlVerdicts)
    ensures r.StampedAt(now)
    ensures JudgedOn(r, scc, bq)
    ensures r.accessControl.status != Warning
    ensures r.integrity.status != Warning
    ensures r.transmissionSecurity.status != Warning
  {
    var access := ValidateAccessControl(scc.securityFindings, bq.accessLogs, now);
    var audit := ValidateAuditControls(bq.accessLogs, bq.dataAccessPatterns, now);
    var integrity := ValidateIntegrity(scc.securityFindings, scc.encryptionStatus, now);
    var transmission := ValidateTransmissionSecurity(scc.networkControls, scc.encryptionStatus, now);
    AccessJudged(scc, bq, now);
    AuditJudged(bq, now);
    IntegrityJudged(scc, now);
    TransmissionJudged(scc, now);
    ControlVerdicts(access, audit, integrity, transmission)
  }

  function ProcessEvidence(scc: SccEvidence, bq: BqEvidence, now: int): (r: ProcessedEvidence)
    ensures r.timestamp == now
    ensures r.controls.StampedAt(now)
    ensures JudgedOn(r.controls, scc, bq)
    ensures r.summary.totalAssetsReviewed == |scc.securityFindings|
    ensures r.summary.criticalFindings == |Filter(scc.securityFindings, IsCritical)|
    ensures r.summary.highFindings == |Filter(scc.securityFindings, IsHigh)|
    ensures r.summary.encryptionComplianceRate == EncryptionRate(scc.encryptionStatus)
    ensures r.summary.auditLogCoverage == AuditCoverage(bq.accessLogs)
    ensures r.summary.criticalFindings == r.scc.criticalFindings
    ensures r.summary.highFindings == r.scc.highFindings
    ensures r.summary.encryptionComplianceRate == 0.0 <==> r.scc.encryptionCompliant == 0
    ensures r.summary.encryptionComplianceRate == 100.0 <==>
      r.scc.encryptionCompliant > 0 && r.scc.encryptionNonCompliant == 0
    ensures r.scc.encryptionCompliant == |Filter(scc.encryptionStatus, IsEncrypted)|
    ensures r.scc.encryptionCompliant + r.scc.encryptionNonCompliant == |scc.encryptionStatus|
    ensures r.bigquery.totalAccessLogs == |bq.accessLogs|
    ensures r.bigquery.uniqueUsers == |Users(bq.accessLogs)|
    ensures r.bigquery.configsCompliant == |Filter(bq.securityConfigs, HasEncryption)|
    ensures r.bigquery.configsCompliant + r.bigquery.configsNonCompliant == |bq.securityConfigs|
    ensures r.controls.accessControl.status != Warning
    ensures r.controls.integrity.status != Warning
    ensures r.controls.transmissionSecurity.status != Warning
  {
    var rollup := ProcessSccEvidence(scc);
    FilterNonEmpty(scc.encryptionStatus, IsEncrypted);
    FilterNonEmpty(scc.encryptionStatus, IsUnencrypted);
    ProcessedEvidence(
      now,
      MapToHipaaControls(scc, bq, now),
      GenerateSummary(scc, bq),
      rollup,
      ProcessBqEvidence(bq))
  }

  /** The roll-ups and the verdicts agree: an unencrypted record makes the
      integrity control non-compliant, and audit coverage below 100% over a
      positive span means the audit control is not compliant. */
  lemma RollupsAgreeWithVerdicts(scc: SccEvidence, bq: BqEvidence, now: int)
    ensures var r := ProcessEvidence(scc, bq, now);
      r.scc.encryptionNonCompliant > 0 ==> r.controls.integrity.status == NonCompliant
    ensures var r := ProcessEvidence(scc, bq, now);
      (Span(Timestamps(bq.accessLogs)) > 0 && r.summary.auditLogCoverage < 100.0) ==> r.controls.auditControls.status != Compliant
  {
  }

  /** With no evidence at all, every control is compliant with no issues and
      every count and rate is zero. */
  lemma EmptyEvidenceIsCompliant(now: int)
    ensures var r := ProcessEvidence(SccEvidence([], [], []), BqEvidence([], [], []), now);
      && (forall k: ControlKey :: r.controls.Get(k) == ControlResult(Compliant, [], now))
      && r.summary == Summary(0, 0, 0, 0.0, 0.0)
      && r.scc == SccRollup(0, 0, 0, 0)
      && r.bigquery == BqRollup(0, 0, 0, 0)
  {
    var r := ProcessEvidence(SccEvidence([], [], []), BqEvidence([], [], []), now);
    assert Sort(Timestamps([])) == [];
  }
}

=== FILE: evidence.dfy ===
/** The evidence records the collectors hand to the engine. Severities and
    states are modelled as strings, since the engine compares them with
    string literals; instants are integer seconds. */
module Evidence {
  import opened Wrappers

  /** One BigQuery audit-log row. `details` is the text form of the payload. */
  datatype AccessLog = AccessLog(
    timestamp: int,
    user: string,
    action: string,
    resource: string,
    severity: string,
    details: string)

  /** Per-user, per-resource access volume aggregated by BigQuery. */
  datatype AccessPattern = AccessPattern(
    user: string,
    resource: string,
    accessCount: int,
    firstAccess: int,
    lastAccess: int)

  /** An active Security Command Center finding. */
  datatype SecurityFinding = SecurityFinding(
    asset: string,
    category: string,
    severity: string,
    state: string,
    description: string,
    timestamp: int)

  /** An encryption-status finding. `text` is the record's whole text form,
      which the transit check searches. */
  datatype EncryptionRecord = EncryptionRecord(
    asset: string,
    status: string,
    category: string,
    timestamp: int,
    text: string)

  /** A network-security finding. */
  datatype NetworkControl = NetworkControl(
    asset: string,
    status: string,
    category: string,
    configuration: string,
    timestamp: int)

  /** A BigQuery table's encryption settings; `None` is Python's `None`. */
  datatype TableConfig = TableConfig(
    project: string,
    dataset: string,
    table: string,
    encryption: Option<string>,
    defaultEncryption: Option<string>)

  /** What the Security Command Center collector returns. */
  datatype SccEvidence = SccEvidence(
    securityFindings: seq<SecurityFinding>,
    encryptionStatus: seq<EncryptionRecord>,
    networkControls: seq<NetworkControl>)

  /** What the BigQuery collector returns. */
  datatype BqEvidence = BqEvidence(
    accessLogs: seq<AccessLog>,
    dataAccessPatterns: seq<AccessPattern>,
    securityConfigs: seq<TableConfig>)

  function Timestamps(logs: seq<AccessLog>): (ts: seq<int>)
    ensures |ts| == |logs|
    ensures forall i :: 0 <= i < |logs| ==> ts[i] == logs[i].timestamp
  {
    seq(|logs|, i requires 0 <= i < |logs| => logs[i].timestamp)
  }
}

=== FILE: percent.dfy ===
/** Percentages of a part within a whole, as exact ratios (the source
    computes them in floating point). */
module Percent {

  /** `100 * part / whole`, and 0 when the whole is empty, the policy both
      summary rates of the source follow. */
  function Percentage(part: int, whole: int): (r: real)
    requires 0 <= part <= whole
    ensures 0.0 <= r <= 100.0
    ensures r == 0.0 <==> part == 0 || whole == 0
    ensures r == 100.0 <==> 0 < whole && part == whole
    ensures whole > 0 ==> r == 100.0 * (part as real / whole as real)
  {
    if whole == 0 then 0.0
    else
      var q := part as real / whole as real;
      assert q * whole as real == part as real;
      assert q <= 1.0;
      assert q == 1.0 ==> part == whole;
      q * 100.0
  }

  /** Equal parts of the same whole give the same percentage. */
  lemma PercentageOfEqual(a: int, b: int, whole: int)
    requires 0 <= a <= whole && a == b
    ensures Percentage(a, whole) == Percentage(b, whole)
  {
  }

  /** A part written as the whole minus what it leaves out gives the same
      percentage. */
  lemma PercentageOfComplement(part: int, whole: int, rest: int)
    requires 0 <= part <= whole && part == whole - rest
    ensures 0 <= rest <= whole
    ensures Percentage(part, whole) == Percentage(whole - rest, whole)
  {
  }
}

=== FILE: report.dfy ===
/** The text the PDF report puts in its control tables: control titles,
    the per-control status row and the issues table. Layout and styling are
    not modelled; a table is a sequence of rows of strings. */
module Report {
  import opened Wrappers
  import opened Text
  import opened Controls
  import Engine

  /** The section sign that prefixes a section number of the regulation. */
  const SectionSign: char := '\U{00A7}'

  /** Fixed headings for the four controls of 45 CFR 164.312, each citing
      its section of the regulation. */
  const KnownTitles: map<string, string> := map[
    "access_control" := "Access Control (" + [SectionSign] + "164.312(a)(1))",
    "audit_controls" := "Audit Controls (" + [SectionSign] + "164.312(b))",
    "integrity" := "Integrity Controls (" + [SectionSign] + "164.312(c)(1))",
    "transmission_security" := "Transmission Security (" + [SectionSign] + "164.312(e)(1))"]

  /** Human-readable title of a control key: its fixed heading, or else the
      key with underscores turned into spaces and title-cased. */
  function ControlTitle(key: string): (r: string)
    ensures key in KnownTitles ==> r == KnownTitles[key]
    ensures key !in KnownTitles ==>
      |r| == |key| && '_' !in r && Lower(r) == Lower(ReplaceChar(key, '_', ' '))
    ensures key !in KnownTitles ==> CapitalisedAtWordStarts(r, key)
  {
    if key in KnownTitles then KnownTitles[key] else FallbackTitle(key)
  }

  /** Over the letters of `key`, `r` is upper case exactly where a run of
      letters of `key` starts. */
  predicate CapitalisedAtWordStarts(r: string, key: string)
    requires |r| == |key|
  {
    forall i :: 0 <= i < |key| && IsLetter(key[i]) ==> (IsUpper(r[i]) <==> (i == 0 || !IsLetter(key[i - 1])))
  }

  /** `key.replace('_', ' ').title()`: same length, no underscore left, the
      same letters ignoring case, and a capital exactly at the start of each
      run of letters. */
  function FallbackTitle(key: string): (r: string)
    ensures |r| == |key|
    ensures '_' !in r
    ensures Lower(r) == Lower(ReplaceChar(key, '_', ' '))
    ensures CapitalisedAtWordStarts(r, key)
  {
    var spaced := ReplaceChar(key, '_', ' ');
    var r := TitleCase(spaced);
    TitleCaseShape(spaced);
    forall j | 0 <= j < |key|
      ensures IsLetter(spaced[j]) == IsLetter(key[j])
      ensures r[j] != '_'
    {
      assert spaced[j] != '_';
    }
    r
  }

  /** Every key of the engine's controls dictionary has a fixed heading. */
  lemma EngineKeysHaveTitles(k: Engine.ControlKey)
    ensures Engine.KeyName(k) in KnownTitles
    ensures SectionSign in ControlTitle(Engine.KeyName(k))
  {
  }

  /** Longest issue-details text shown unabridged. */
  const DetailsLimit: nat := 100
  const Ellipsis: string := "..."

  /** The details cell: at most 100 characters of the text, with "..." when
      something was cut. */
  function TruncateDetails(s: string): (r: string)
    ensures |s| <= DetailsLimit ==> r == s
    ensures |s| > DetailsLimit ==>
      |r| == DetailsLimit + |Ellipsis| && r[..DetailsLimit] == s[..DetailsLimit] && r[DetailsLimit..] == Ellipsis
    ensures |r| <= DetailsLimit + |Ellipsis|
  {
    if |s| > DetailsLimit then s[..DetailsLimit] + Ellipsis else s
  }

  datatype Row = Row(cells: seq<string>)

  const IssuesHeader: Row := Row(["Issue Type", "Count", "Details"])

  /** The issues table: a header and one row per issue, in order, holding the
      issue's type, its count and its abridged details. `render` stands for
      Python's text form of the sample. */
  function IssuesTable(issues: seq<Issue>, render: seq<Item> -> string): (t: seq<Row>)
    ensures |t| == |issues| + 1
    ensures t[0] == IssuesHeader
  {
    [IssuesHeader] + IssueRows(issues, render)
  }

  /** Below the header, row `i + 1` of the issues table shows issue `i`. */
  lemma IssuesTableShows(issues: seq<Issue>, render: seq<Item> -> string)
    ensures forall i :: 0 <= i < |issues| ==> Shows(IssuesTable(issues, render)[i + 1], issues[i], render)
  {
    var rows := IssueRows(issues, render);
    assert IssuesTable(issues, render)[1..] == rows;
  }

  /** The body of the issues table, one row per issue in order. */
  function IssueRows(issues: seq<Issue>, render: seq<Item> -> string): (rows: seq<Row>)
    ensures |rows| == |issues|
    ensures forall i :: 0 <= i < |issues| ==> Shows(rows[i], issues[i], render)
    decreases |issues|
  {
    if |issues| == 0 then []
    else [IssueRow(issues[0], render)] + IssueRows(issues[1..], render)
  }

  /** `row` shows `issue`: its type, a count cell that reads back as the
      count, and the abridged text of its sample. */
  predicate Shows(row: Row, issue: Issue, render: seq<Item> -> string)
  {
    && |row.cells| == 3
    && row.cells[0] == KindName(issue.kind)
    && ParseNat(row.cells[1]) == Some(issue.count)
    && row.cells[2] == TruncateDetails(render(issue.details))
  }

  /** One issue's row: its type, its count (which reads back as the
      count), and its details abridged to at most 103 characters. */
  function IssueRow(issue: Issue, render: seq<Item> -> string): (row: Row)
    ensures Shows(row, issue, render)
    ensures |row.cells[2]| <= DetailsLimit + |Ellipsis|
  {
    ParseNatToString(issue.count);
    Row([KindName(issue.kind), NatToString(issue.count), TruncateDetails(render(issue.details))])
  }

  /** The status row of a control's table: its status upper-cased and the
      number of issues it found. The last-validated cell, a formatted
      timestamp, is not modelled. */
  function StatusRow(result: ControlResult): (row: Row)
    ensures |row.cells| == 2
    ensures forall i :: 0 <= i < |row.cells[0]| ==> !IsLower(row.cells[0][i])
    ensures Lower(row.cells[0]) == StatusName(result.status)
    ensures ParseNat(row.cells[1]) == Some(|result.issues|)
  {
    LowerUpperOfLower(StatusName(result.status));
    ParseNatToString(|result.issues|);
    Row([Upper(StatusName(result.status)), NatToString(|result.issues|)])
  }
}

=== FILE: seqs.dfy ===
/** Filtering and bounded sampling over sequences: every validator of the
    evidence engine is a filter over an evidence list followed by a count and
    a bounded sample of the filtered list. */
module Seqs {

  function Min(a: int, b: int): int
  {
    if a <= b then a else b
  }

  /** The elements of `xs` that satisfy `p`, in their original order (a
      Python list comprehension with an `if` clause). */
  function Filter<T(==)>(xs: seq<T>, p: T -> bool): (r: seq<T>)
    ensures |r| <= |xs|
    ensures forall i :: 0 <= i < |r| ==> p(r[i]) && r[i] in xs
    ensures forall x :: x in xs && p(x) ==> x in r
    decreases |xs|
  {
    if |xs| == 0 then []
    else (if p(xs[0]) then [xs[0]] else []) + Filter(xs[1..], p)
  }

  /** The filtered list is non-empty exactly when some element passes. */
  lemma FilterNonEmpty<T>(xs: seq<T>, p: T -> bool)
    ensures |Filter(xs, p)| > 0 <==> exists x :: x in xs && p(x)
  {
    if |Filter(xs, p)| > 0 {
      assert Filter(xs, p)[0] in xs;
    }
  }

  /** Nothing is dropped exactly when every element passes. */
  lemma FilterFull<T>(xs: seq<T>, p: T -> bool)
    ensures |Filter(xs, p)| == |xs| <==> forall x :: x in xs ==> p(x)
  {
    var q := (x: T) => !p(x);
    FilterComplement(xs, p, q);
    FilterNonEmpty(xs, q);
    if forall x :: x in xs ==> p(x) {
      assert forall i :: 0 <= i < |xs| ==> p(xs[i]) by {
        forall i | 0 <= i < |xs| ensures p(xs[i]) {
          assert xs[i] in xs;
        }
      }
      FilterKeepsAll(xs, p);
    }
  }

  /** The first `n` elements of `xs`, or all of them when there are fewer
      (Python's `xs[:n]`). */
  function Take<T>(xs: seq<T>, n: nat): (r: seq<T>)
    ensures |r| == Min(n, |xs|)
    ensures r <= xs
  {
    xs[..Min(n, |xs|)]
  }

  /** Filtering distributes over concatenation: the order of the flagged
      elements is the order in which they occur in the input. */
  lemma {:induction false} FilterAppend<T>(a: seq<T>, b: seq<T>, p: T -> bool)
    ensures Filter(a + b, p) == Filter(a, p) + Filter(b, p)
    decreases |a|
  {
    if |a| == 0 {
      assert a + b == b;
    } else {
      assert (a + b)[1..] == a[1..] + b;
      FilterAppend(a[1..], b, p);
    }
  }

  /** Filtering with a predicate every element satisfies keeps the whole list. */
  lemma {:induction false} FilterKeepsAll<T>(xs: seq<T>, p: T -> bool)
    requires forall i :: 0 <= i < |xs| ==> p(xs[i])
    ensures Filter(xs, p) == xs
    decreases |xs|
  {
    if |xs| > 0 {
      FilterKeepsAll(xs[1..], p);
      assert [xs[0]] + xs[1..] == xs;
    }
  }

  /** An element and its complement split the list: the two filtered counts
      add up to the length of the input. */
  lemma {:induction false} FilterComplement<T>(xs: seq<T>, p: T -> bool, q: T -> bool)
    requires forall x :: q(x) == !p(x)
    ensures |Filter(xs, p)| + |Filter(xs, q)| == |xs|
    decreases |xs|
  {
    if |xs| > 0 {
      FilterComplement(xs[1..], p, q);
    }
  }

  /** Predicates no element satisfies together flag at most `|xs|` elements
      between them. */
  lemma {:induction false} FilterDisjoint<T>(xs: seq<T>, p: T -> bool, q: T -> bool)
    requires forall x :: !(p(x) && q(x))
    ensures |Filter(xs, p)| + |Filter(xs, q)| <= |xs|
    decreases |xs|
  {
    if |xs| > 0 {
      FilterDisjoint(xs[1..], p, q);
    }
  }

  /** A stronger predicate flags no more elements than a weaker one. */
  lemma {:induction false} FilterMonotone<T>(xs: seq<T>, p: T -> bool, q: T -> bool)
    requires forall x :: p(x) ==> q(x)
    ensures |Filter(xs, p)| <= |Filter(xs, q)|
    decreases |xs|
  {
    if |xs| > 0 {
      FilterMonotone(xs[1..], p, q);
    }
  }
}

=== FILE: text.dfy ===
/** String operations the engine and the reporter rely on: ASCII case
    mapping (Python's `lower`, `upper` and `title`), substring search
    (Python's `in` on strings), character replacement, and the decimal
    rendering of counts (Python's `str` on a non-negative integer). */
module Text {
  import opened Wrappers

  predicate IsUpper(c: char) { 'A' <= c <= 'Z' }
  predicate IsLower(c: char) { 'a' <= c <= 'z' }
  predicate IsLetter(c: char) { IsUpper(c) || IsLower(c) }
  predicate IsDigit(c: char) { '0' <= c <= '9' }

  function LowerChar(c: char): (r: char)
    ensures IsLetter(r) == IsLetter(c) && !IsUpper(r)
  {
    if IsUpper(c) then (c as int + 32) as char else c
  }

  function UpperChar(c: char): (r: char)
    ensures IsLetter(r) == IsLetter(c) && !IsLower(r)
  {
    if IsLower(c) then (c as int - 32) as char else c
  }

  /** Python's `s.lower()`, restricted to ASCII letters. */
  function Lower(s: string): (r: string)
    ensures |r| == |s|
  {
    seq(|s|, i requires 0 <= i < |s| => LowerChar(s[i]))
  }

  /** Python's `s.upper()`, restricted to ASCII letters. */
  function Upper(s: string): (r: string)
    ensures |r| == |s|
  {
    seq(|s|, i requires 0 <= i < |s| => UpperChar(s[i]))
  }

  /** `sub` occurs in `s` starting at index `i`. */
  predicate OccursAt(sub: string, s: string, i: int)
  {
    0 <= i && i + |sub| <= |s| && s[i..i + |sub|] == sub
  }

  /** Python's `sub in s` for strings. */
  predicate Contains(s: string, sub: string)
  {
    exists i | 0 <= i <= |s| - |sub| :: OccursAt(sub, s, i)
  }

  /** Python's `s.replace(a, b)` for single characters. */
  function ReplaceChar(s: string, a: char, b: char): (r: string)
    ensures |r| == |s|
    ensures a != b ==> a !in r
    ensures forall i :: 0 <= i < |s| && s[i] != a ==> r[i] == s[i]
    ensures forall i :: 0 <= i < |s| && s[i] == a ==> r[i] == b
  {
    seq(|s|, i requires 0 <= i < |s| => if s[i] == a then b else s[i])
  }

  /** One character of Python's `s.title()`: a letter is upper-cased when
      the character before it is not a letter and lower-cased otherwise. */
  function TitleChar(c: char, afterLetter: bool): char
  {
    if afterLetter then LowerChar(c) else UpperChar(c)
  }

  /** Python's `s.title()`, restricted to ASCII letters: the first letter of
      every run of letters is upper case, the others lower case. */
  function TitleCase(s: string): (r: string)
    ensures |r| == |s|
  {
    seq(|s|, i requires 0 <= i < |s| => TitleChar(s[i], i > 0 && IsLetter(s[i - 1])))
  }

  /** Title-casing keeps letters where they are and changes only their case,
      puts a capital at the start of every word and nowhere else, and applying
      it twice changes nothing more. */
  lemma TitleCaseShape(s: string)
    ensures Lower(TitleCase(s)) == Lower(s)
    ensures forall i :: 0 <= i < |s| ==> (IsLetter(TitleCase(s)[i]) <==> IsLetter(s[i]))
    ensures forall i :: 0 <= i < |s| && IsLetter(s[i]) ==>
              (IsUpper(TitleCase(s)[i]) <==> (i == 0 || !IsLetter(s[i - 1])))
    ensures TitleCase(TitleCase(s)) == TitleCase(s)
  {
    var t := TitleCase(s);
    forall i | 0 <= i < |s|
      ensures LowerChar(t[i]) == LowerChar(s[i])
    {
    }
    forall i | 0 <= i < |s|
      ensures TitleCase(t)[i] == t[i]
    {
      assert i > 0 ==> (IsLetter(t[i - 1]) <==> IsLetter(s[i - 1]));
    }
  }

  const Digits: string := "0123456789"

  function DigitChar(d: nat): (c: char)
    requires d < 10
    ensures IsDigit(c) && c as int - '0' as int == d
  {
    Digits[d]
  }

  function DigitValue(c: char): (d: nat)
    requires IsDigit(c)
    ensures d < 10 && DigitChar(d) == c
  {
    c as int - '0' as int
  }

  /** Python's `str(n)` for a non-negative integer: decimal digits, with no
      leading zero except for zero itself. */
  function NatToString(n: nat): (r: string)
    ensures |r| >= 1
    ensures forall i :: 0 <= i < |r| ==> IsDigit(r[i])
    ensures r[0] == '0' ==> n == 0 && |r| == 1
    decreases n
  {
    if n < 10 then [DigitChar(n)]
    else NatToString(n / 10) + [DigitChar(n % 10)]
  }

  predicate AllDigits(s: string)
  {
    forall i :: 0 <= i < |s| ==> IsDigit(s[i])
  }

  /** A canonical decimal numeral: non-empty, digits only, no leading zero
      unless it is the numeral for zero. */
  predicate IsNumeral(s: string)
  {
    |s| >= 1 && AllDigits(s) && (s[0] == '0' ==> |s| == 1)
  }

  function DigitsValue(s: string): nat
    requires AllDigits(s)
    decreases |s|
  {
    if |s| == 0 then 0
    else DigitsValue(s[..|s| - 1]) * 10 + DigitValue(s[|s| - 1])
  }

  /** The number a cell of the report shows, read back from its text. */
  function ParseNat(s: string): (r: Option<nat>)
    ensures r.Some? <==> |s| >= 1 && AllDigits(s)
  {
    if |s| >= 1 && AllDigits(s) then Some(DigitsValue(s)) else None
  }

  /** Reading back a rendered count gives the count. */
  lemma {:induction false} ParseNatToString(n: nat)
    ensures ParseNat(NatToString(n)) == Some(n)
    decreases n
  {
    var r := NatToString(n);
    if n >= 10 {
      ParseNatToString(n / 10);
      assert r[..|r| - 1] == NatToString(n / 10);
      assert DigitsValue(r) == (n / 10) * 10 + n % 10;
    }
  }

  /** Every canonical numeral is the rendering of the number it denotes, so
      the rendering is onto the canonical numerals. */
  lemma {:induction false} NatToStringOfNumeral(s: string)
    requires IsNumeral(s)
    ensures NatToString(DigitsValue(s)) == s
    ensures s[0] != '0' ==> DigitsValue(s) >= 1
    decreases |s|
  {
    if |s| > 1 {
      var init := s[..|s| - 1];
      assert init[0] == s[0];
      NatToStringOfNumeral(init);
      var v := DigitsValue(s);
      var d := DigitValue(s[|s| - 1]);
      assert v == DigitsValue(init) * 10 + d;
      assert v / 10 == DigitsValue(init) && v % 10 == d;
      assert s == init + [s[|s| - 1]];
    }
  }

  /** Upper-casing the lower-case name of a status and lower-casing it back
      recovers the name. */
  lemma {:induction false} LowerUpperOfLower(s: string)
    requires forall i :: 0 <= i < |s| ==> !IsUpper(s[i])
    ensures Lower(Upper(s)) == s
  {
    assert forall i :: 0 <= i < |s| ==> LowerChar(UpperChar(s[i])) == s[i];
  }
}

=== FILE: timeline.dfy ===
/** Gap detection over access-log timestamps. The source sorts the
    timestamps with pandas, takes the consecutive differences, and treats a
    difference strictly longer than one hour as a hole in audit logging.
    Timestamps here are integer seconds and pandas' sort is an explicit
    insertion sort. */
module Timeline {
  import opened Seqs
  import opened Percent

  /** One hour in seconds; hard-coded in the source, not read from configuration. */
  const GapThreshold: int := 3600

  predicate Sorted(s: seq<int>)
  {
    forall i, j :: 0 <= i < j < |s| ==> s[i] <= s[j]
  }

  /** The head of an ascending sequence is its least element, and its last
      element the greatest. */
  lemma SortedEnds(s: seq<int>, y: int)
    requires Sorted(s) && y in s
    ensures s[0] <= y <= s[|s| - 1]
  {
    var k :| 0 <= k < |s| && s[k] == y;
  }

  function Insert(x: int, s: seq<int>): (r: seq<int>)
    requires Sorted(s)
    ensures Sorted(r)
    ensures multiset(r) == multiset(s) + multiset{x}
    ensures |r| == |s| + 1
    ensures r[0] == x || (|s| > 0 && r[0] == s[0])
    decreases |s|
  {
    if |s| == 0 then [x]
    else if x <= s[0] then [x] + s
    else
      assert s == [s[0]] + s[1..];
      var rest := Insert(x, s[1..]);
      assert s[0] <= rest[0] by {
        if |s| > 1 { assert s[0] <= s[1]; }
      }
      [s[0]] + rest
  }

  /** The timestamps in ascending order (`sort_values('timestamp')`). */
  function Sort(ts: seq<int>): (r: seq<int>)
    ensures Sorted(r)
    ensures multiset(r) == multiset(ts)
    ensures |r| == |ts|
    decreases |ts|
  {
    if |ts| == 0 then []
    else
      assert ts == [ts[0]] + ts[1..];
      Insert(ts[0], Sort(ts[1..]))
  }

  /** Two ascending sequences with the same elements are equal. */
  lemma {:induction false} SortedUnique(a: seq<int>, b: seq<int>)
    requires Sorted(a) && Sorted(b)
    requires multiset(a) == multiset(b)
    ensures a == b
    decreases |a|
  {
    if |a| == 0 {
      assert |multiset(b)| == 0;
    } else {
      SameHead(a, b);
      TailMultiset(a);
      TailMultiset(b);
      assert Sorted(a[1..]) && Sorted(b[1..]);
      SortedUnique(a[1..], b[1..]);
      assert a == [a[0]] + a[1..];
      assert b == [b[0]] + b[1..];
    }
  }

  lemma SameHead(a: seq<int>, b: seq<int>)
    requires Sorted(a) && Sorted(b) && |a| > 0
    requires multiset(a) == multiset(b)
    ensures |b| > 0 && a[0] == b[0]
  {
    assert |b| == |multiset(b)| == |a|;
    assert a[0] in multiset(b) && b[0] in multiset(a);
    SortedEnds(b, a[0]);
    SortedEnds(a, b[0]);
  }

  lemma TailMultiset(a: seq<int>)
    requires |a| > 0
    ensures multiset(a[1..]) == multiset(a) - multiset{a[0]}
  {
    assert a == [a[0]] + a[1..];
  }

  /** The gap verdict does not depend on the order in which the logs arrive:
      any rearrangement of the timestamps sorts to the same sequence, and an
      already ascending sequence sorts to itself. */
  lemma SortIsCanonical(a: seq<int>, b: seq<int>)
    requires multiset(a) == multiset(b)
    ensures Sort(a) == Sort(b)
    ensures Sorted(a) ==> Sort(a) == a
  {
    SortedUnique(Sort(a), Sort(b));
    if Sorted(a) {
      SortedUnique(Sort(a), a);
    }
  }

  function MinOf(s: seq<int>): (m: int)
    requires |s| > 0
    ensures m in s && forall x :: x in s ==> m <= x
    decreases |s|
  {
    if |s| == 1 then s[0]
    else
      assert s == [s[0]] + s[1..];
      var m := MinOf(s[1..]);
      if s[0] <= m then s[0] else m
  }

  function MaxOf(s: seq<int>): (m: int)
    requires |s| > 0
    ensures m in s && forall x :: x in s ==> x <= m
    decreases |s|
  {
    if |s| == 1 then s[0]
    else
      assert s == [s[0]] + s[1..];
      var m := MaxOf(s[1..]);
      if s[0] >= m then s[0] else m
  }

  /** The sorted sequence starts at the earliest and ends at the latest
      timestamp, so `max - min` (the source's span) is `last - first` of the
      sorted sequence. */
  lemma SortEnds(ts: seq<int>)
    requires |ts| > 0
    ensures Sort(ts)[0] == MinOf(ts)
    ensures Sort(ts)[|ts| - 1] == MaxOf(ts)
  {
    var s := Sort(ts);
    var lo, hi := MinOf(ts), MaxOf(ts);
    assert s[0] in multiset(ts) && s[|s| - 1] in multiset(ts);
    assert s[0] in ts && s[|s| - 1] in ts;
    assert lo <= s[0] && s[|s| - 1] <= hi;
    assert lo in multiset(s) && hi in multiset(s);
    SortedEnds(s, lo);
    SortedEnds(s, hi);
  }

  /** A hole in audit logging between two consecutive timestamps. */
  datatype Gap = Gap(start: int, end: int)
  {
    function Length(): int { end - start }
  }

  /** The gaps of an ascending timestamp sequence: every consecutive pair
      whose difference exceeds `GapThreshold`, in chronological order. */
  function Gaps(s: seq<int>): (r: seq<Gap>)
    ensures |r| <= if |s| == 0 then 0 else |s| - 1
    ensures forall g :: g in r ==> g.Length() > GapThreshold
    decreases |s|
  {
    if |s| < 2 then []
    else (if s[1] - s[0] > GapThreshold then [Gap(s[0], s[1])] else []) + Gaps(s[1..])
  }

  /** A gap is exactly a pair of neighbours more than an hour apart; two
      equal timestamps are never a gap. */
  lemma {:induction false} GapsAreBigSteps(s: seq<int>, g: Gap)
    ensures g in Gaps(s) <==>
      exists i :: 0 <= i < |s| - 1 && g == Gap(s[i], s[i + 1]) && s[i + 1] - s[i] > GapThreshold
    decreases |s|
  {
    if |s| >= 2 {
      GapsAreBigSteps(s[1..], g);
      if g in Gaps(s[1..]) {
        var i :| 0 <= i < |s| - 2 && g == Gap(s[1..][i], s[1..][i + 1]) && s[1..][i + 1] - s[1..][i] > GapThreshold;
        assert g == Gap(s[i + 1], s[i + 2]);
      }
      if exists i :: 0 <= i < |s| - 1 && g == Gap(s[i], s[i + 1]) && s[i + 1] - s[i] > GapThreshold {
        var i :| 0 <= i < |s| - 1 && g == Gap(s[i], s[i + 1]) && s[i + 1] - s[i] > GapThreshold;
        if i > 0 {
          assert g == Gap(s[1..][i - 1], s[1..][i]);
        }
      }
    }
  }

  /** The consecutive differences of `s` (pandas' `diff()` without the
      leading missing value). */
  function Steps(s: seq<int>): seq<int>
  {
    if |s| < 2 then [] else seq(|s| - 1, i requires 0 <= i < |s| - 1 => s[i + 1] - s[i])
  }

  predicate IsLongStep(d: int) { d > GapThreshold }

  lemma StepsCons(s: seq<int>)
    requires |s| >= 2
    ensures Steps(s) == [s[1] - s[0]] + Steps(s[1..])
  {
    var t := s[1..];
    assert |Steps(s)| == 1 + |Steps(t)|;
    assert forall i :: 0 <= i < |Steps(t)| ==> Steps(s)[i + 1] == Steps(t)[i];
  }

  /** The number of gaps is the number of consecutive differences strictly
      greater than one hour. */
  lemma {:induction false} GapCount(s: seq<int>)
    ensures |Gaps(s)| == |Filter(Steps(s), IsLongStep)|
    decreases |s|
  {
    if |s| >= 2 {
      GapCount(s[1..]);
      var t := s[1..];
      StepsCons(s);
      FilterAppend([s[1] - s[0]], Steps(s[1..]), IsLongStep);
    }
  }

  /** Total length of a list of gaps. */
  function GapTotal(gs: seq<Gap>): int
    decreases |gs|
  {
    if |gs| == 0 then 0 else gs[0].Length() + GapTotal(gs[1..])
  }

  /** The gaps of an ascending sequence add up to no more than its span,
      and to something positive exactly when there is a gap. */
  lemma {:induction false} GapTotalWithinSpan(s: seq<int>)
    requires Sorted(s) && |s| > 0
    ensures 0 <= GapTotal(Gaps(s)) <= s[|s| - 1] - s[0]
    ensures GapTotal(Gaps(s)) > 0 <==> Gaps(s) != []
    decreases |s|
  {
    if |s| >= 2 {
      var t := s[1..];
      GapTotalWithinSpan(t);
      assert t[|t| - 1] == s[|s| - 1] && t[0] == s[1] && s[0] <= s[1];
      if s[1] - s[0] > GapThreshold {
        var gs := Gaps(s);
        assert gs == [Gap(s[0], s[1])] + Gaps(t);
        assert gs[0] == Gap(s[0], s[1]) && gs[1..] == Gaps(t);
        assert GapTotal(gs) == s[1] - s[0] + GapTotal(Gaps(t));
      } else {
        assert Gaps(s) == Gaps(t);
      }
    }
  }

  /** Latest minus earliest timestamp; 0 when there are none. */
  function Span(ts: seq<int>): (r: int)
    ensures r >= 0
  {
    if |ts| == 0 then 0 else MaxOf(ts) - MinOf(ts)
  }

  /** The part of the span that no gap covers. */
  function CoveredSpan(ts: seq<int>): (r: int)
    ensures 0 <= r <= Span(ts)
  {
    if |ts| == 0 then 0
    else
      CoverageBounds(ts);
      Span(ts) - GapTotal(Gaps(Sort(ts)))
  }

  /** Percentage of the logged span not covered by gaps: 0 for no
      timestamps or a zero span, otherwise 100 * (span - gaps) / span, with
      the span taken as latest minus earliest timestamp. */
  function Coverage(ts: seq<int>): (r: real)
    ensures 0.0 <= r <= 100.0
    ensures Span(ts) == 0 ==> r == 0.0
  {
    Percentage(CoveredSpan(ts), Span(ts))
  }

  /** Sum of a list of integers. */
  function Sum(xs: seq<int>): int
    decreases |xs|
  {
    if |xs| == 0 then 0 else xs[0] + Sum(xs[1..])
  }

  /** The gaps add up to the sum of the consecutive differences longer than
      an hour. */
  lemma {:induction false} GapTotalIsLongStepSum(s: seq<int>)
    ensures GapTotal(Gaps(s)) == Sum(Filter(Steps(s), IsLongStep))
    decreases |s|
  {
    if |s| >= 2 {
      var t := s[1..];
      var d := s[1] - s[0];
      GapTotalIsLongStepSum(t);
      StepsCons(s);
      FilterAppend([d], Steps(t), IsLongStep);
      var gs := Gaps(s);
      var long := Filter(Steps(t), IsLongStep);
      if d > GapThreshold {
        assert gs == [Gap(s[0], s[1])] + Gaps(t);
        assert gs[0] == Gap(s[0], s[1]) && gs[1..] == Gaps(t);
        assert GapTotal(gs) == d + GapTotal(Gaps(t));
        assert Filter(Steps(s), IsLongStep) == [d] + long;
        assert ([d] + long)[1..] == long;
        assert Sum([d] + long) == d + Sum(long);
      } else {
        assert gs == Gaps(t);
        assert Filter([d], IsLongStep) == [];
        assert Filter(Steps(s), IsLongStep) == long;
      }
    }
  }

  /** Audit coverage as a formula: with a positive span, it is 100 times the
      span minus the consecutive differences longer than an hour, over the
      span. */
  lemma CoverageFormula(ts: seq<int>)
    requires Span(ts) > 0
    ensures var long := Sum(Filter(Steps(Sort(ts)), IsLongStep));
      0 <= long <= Span(ts) && Coverage(ts) == Percentage(Span(ts) - long, Span(ts))
  {
    CoveredSpanIsLongStepSum(ts);
    CoverageFromCovered(ts, Sum(Filter(Steps(Sort(ts)), IsLongStep)));
  }

  /** Coverage is the percentage of the span that is covered, however the
      uncovered part is written. */
  lemma CoverageFromCovered(ts: seq<int>, uncovered: int)
    requires CoveredSpan(ts) == Span(ts) - uncovered
    ensures 0 <= uncovered <= Span(ts)
    ensures Coverage(ts) == Percentage(Span(ts) - uncovered, Span(ts))
  {
    PercentageOfComplement(CoveredSpan(ts), Span(ts), uncovered);
  }

  lemma CoveredSpanIsLongStepSum(ts: seq<int>)
    requires |ts| > 0
    ensures CoveredSpan(ts) == Span(ts) - Sum(Filter(Steps(Sort(ts)), IsLongStep))
  {
    GapTotalIsLongStepSum(Sort(ts));
  }

  /** With a positive span, coverage is full exactly when no gap is found. */
  lemma CoverageFull(ts: seq<int>)
    requires Span(ts) > 0
    ensures Coverage(ts) == 100.0 <==> Gaps(Sort(ts)) == []
  {
    CoverageBounds(ts);
    assert CoveredSpan(ts) == Span(ts) <==> Gaps(Sort(ts)) == [];
    assert Coverage(ts) == Percentage(CoveredSpan(ts), Span(ts));
  }

  lemma CoverageBounds(ts: seq<int>)
    requires |ts| > 0
    ensures 0 <= GapTotal(Gaps(Sort(ts))) <= Span(ts)
    ensures GapTotal(Gaps(Sort(ts))) > 0 <==> Gaps(Sort(ts)) != []
  {
    SortEnds(ts);
    GapTotalWithinSpan(Sort(ts));
  }

  /** A four-hour log with one three-hour hole is a quarter covered. */
  lemma CoverageExample()
    ensures Coverage([3600, 0, 14400]) == 25.0
  {
    var ts := [3600, 0, 14400];
    ExampleSpans();
    PercentageOfEqual(CoveredSpan(ts), 3600, Span(ts));
    assert Percentage(3600, 14400) == 25.0;
  }

  lemma ExampleSpans()
    ensures Span([3600, 0, 14400]) == 14400
    ensures CoveredSpan([3600, 0, 14400]) == 3600
  {
    ExampleSort();
    ExampleGaps();
    SortEnds([3600, 0, 14400]);
  }

  lemma ExampleSort()
    ensures Sort([3600, 0, 14400]) == [0, 3600, 14400]
  {
    var a, b := [3600, 0, 14400], [0, 3600, 14400];
    assert multiset(a) == multiset(b);
    assert Sorted(b);
    SortIsCanonical(a, b);
    SortIsCanonical(b, b);
  }

  lemma ExampleGaps()
    ensures GapTotal(Gaps([0, 3600, 14400])) == 10800
  {
    assert Gaps([3600, 14400]) == [Gap(3600, 14400)];
    assert Gaps([0, 3600, 14400]) == [Gap(3600, 14400)];
  }

  /** Every gap of a non-empty sequence starts at one of its elements, so
      no earlier than the first element of an ascending sequence. */
  lemma {:induction false} GapsStartAfter(s: seq<int>)
    requires Sorted(s) && |s| > 0
    ensures forall g :: g in Gaps(s) ==> s[0] <= g.start
    decreases |s|
  {
    if |s| >= 2 {
      assert Sorted(s[1..]);
      GapsStartAfter(s[1..]);
    }
  }

  /** The gaps of an ascending sequence come in chronological order: each
      ends no later than the next one starts. */
  lemma {:induction false} GapsInOrder(s: seq<int>)
    requires Sorted(s)
    ensures forall i, j :: 0 <= i < j < |Gaps(s)| ==> Gaps(s)[i].end <= Gaps(s)[j].start
    decreases |s|
  {
    if |s| >= 2 {
      var rest := s[1..];
      assert Sorted(rest);
      GapsInOrder(rest);
      GapsStartAfter(rest);
      var head := if s[1] - s[0] > GapThreshold then [Gap(s[0], s[1])] else [];
      assert Gaps(s) == head + Gaps(rest);
      forall i, j | 0 <= i < j < |Gaps(s)|
        ensures Gaps(s)[i].end <= Gaps(s)[j].start
      {
        if |head| == 1 && i == 0 {
          assert Gaps(s)[j] == Gaps(rest)[j - 1];
          assert Gaps(s)[j] in Gaps(rest);
        }
      }
    }
  }
}

=== FILE: wrappers.dfy ===
/** Failure-compatible wrappers shared by the rest of the model. */
module Wrappers {

  /** A value that may be absent. */
  datatype Option<+T> = None | Some(value: T)

  /** Either a successful value or the error that stopped the computation;
      stands in for a Python function that returns normally or raises. */
  datatype Result<+T, +E> = Success(value: T) | Failure(error: E)
}
